=== FILE: README.md ===
# cryptography: keys, key derivation and authenticated messages

A Dafny model of the core of the Ruby library `cryptography`. The library
wraps libsodium's keyed hashes in three kinds of objects:

- **PBKDF2 derivers.** There are two engines, following RFC 8018 section 5.2.
  `Cryptography::KDF::PBKDF2` fills a buffer block by block. The older
  `Cryptography::Util::PBKDF2` folds blocks into a string.
- **Symmetric keys.** `Cryptography::Symmetric::Key` and the older
  `Cryptography::Key` hold random bytes under a *context* (what the key is
  for) and a *primitive* (which algorithm may use it). A key can be locked
  with a password: its bytes then serve as the salt of a PBKDF2 derivation.
  `Symmetric::Key#unlock(password)` re-derives the working key and compares
  a stored signature. The older class computes the signature too, but every
  one of its `_verify_*` checks is a stub that returns true, so any password
  unlocks it.
- **Authenticated messages.** `Cryptography::Symmetric::AuthenticatedMessage`
  stores a message with its keyed hash (the *authenticator*). `contents(key)`
  hands the message back only when the authenticator matches.

Every entity keeps its state in an attribute hash. The `Serializable`
mix-in turns that hash into a protocol buffer and back: enums travel as
numbers and byte buffers as strings.

Modules, one per source file, plus two shared ones:

| module | file | models |
|---|---|---|
| `Outcomes` | outcomes.dfy | `Option`, `Result`, and the `ArgumentError`s the source raises, as error values |
| `Octets` | octets.dfy | byte strings: zero padding (`Sodium::Buffer.ljust`/`rpad`), xor, the 32-bit big-endian block counter |
| `Sodium` | sodium.dfy | the libsodium surface used: the two keyed hashes, `nacl` into a buffer, `sodium_memxor`, `Sodium::Buffer.key` |
| `Kdf` | kdf_pbkdf2.dfy | `Cryptography::KDF::PBKDF2` |
| `UtilPbkdf2` | util_pbkdf2.dfy | `Cryptography::Util::PBKDF2` |
| `Serializable` | serializable.dfy | the enum tables, `from_protocol_buffer`/`to_protocol_buffer`, `from_s`/`to_s` |
| `SymmetricKey` | symmetric_key.dfy | `Cryptography::Symmetric::Key` |
| `LegacyKey` | legacy_key.dfy | `Cryptography::Key` |
| `Authentication` | authenticated_message.dfy | `Cryptography::Symmetric::AuthenticatedMessage` |

How the model is built:

- **Specification functions.** The derivation is specified by
  `Kdf.Chain`/`Accumulated`/`Block`/`Blocks`/`DerivedKey`, the U values and
  the F function of RFC 8018.
- **Methods proved against them.** The buffer-filling methods follow the
  Ruby loops, with arrays for the `Sodium::Buffer`s they write in place, and
  are proved to compute those functions.
- **Entities.** Keys and messages are classes with an `attributes` map and a
  `frozen` flag. Construction is a static method that returns a `Result`.
  The checks run by `on_initialize!`, `bytes`, `lock!`, `unlock` and
  `contents` are functions over the attribute map. The lemmas about the
  entities are stated over those functions.

Outside inputs are parameters:

- the keyed hash: `Sodium.Mac`, any function whose output has the hash's
  size;
- the calibrated default cost: `Kdf.Calibration`;
- the random bytes of a new key;
- the protocol-buffer wire codec: `Serializable.Codec`.

## Model

| member | source | states |
|---|---|---|
| Octets.Ljust | lib/cryptography/kdf/pbkdf2.rb:58 | the padded password keeps the password as its prefix, is zero after it, and is at least the requested length |
| Octets.Rpad | lib/cryptography/kdf/pbkdf2.rb:63 | the salt buffer is the salt followed by four zero bytes |
| Octets.Xor | lib/cryptography/util/pbkdf2.rb:91-99 | one xored byte per byte of the left operand, byte `k` being `left[k] ^ right[k]` |
| Octets.XorZerosLeft | lib/cryptography/kdf/pbkdf2.rb:142-147 | xoring a hash into the zeroed accumulator leaves exactly that hash |
| Octets.XorInvolution | lib/cryptography/util/pbkdf2.rb:91-99 | xoring the same operand twice restores the original |
| Octets.Pack32BE | lib/cryptography/kdf/pbkdf2.rb:108 | `[n].pack('N')` is four bytes |
| Octets.UnpackPack | lib/cryptography/kdf/pbkdf2.rb:108 | the four bytes spell `n` modulo 2^32, most significant first |
| Octets.PackUnpack | lib/cryptography/kdf/pbkdf2.rb:108 | every four-byte string is the packing of the number it spells |
| Octets.PackInjective | lib/cryptography/kdf/pbkdf2.rb:108 | distinct 32-bit block numbers give distinct counter bytes, so every block has its own seed |
| Sodium.Implementation | lib/cryptography/kdf/pbkdf2.rb:85-87 | a primitive has an implementation exactly when it is `hmacsha256` or `hmacsha512256`, and that implementation carries the same primitive name |
| Sodium.AuthInto | lib/cryptography/kdf/pbkdf2.rb:135-140 | `nacl` writes the keyed hash of the data into the output buffer |
| Sodium.MemXor | lib/cryptography/kdf/pbkdf2.rb:142-147 | `sodium_memxor` leaves the destination xored with the source |
| Sodium.RandomKey | lib/cryptography/symmetric/key.rb:37 | `Sodium::Buffer.key(size)` succeeds exactly for a size of zero or more, and yields that many bytes |
| Kdf.New | lib/cryptography/kdf/pbkdf2.rb:15-50 | a missing primitive is the default and a missing cost the calibrated one; the deriver is built exactly when size > 0, cost > 0 and the primitive names a hash; with no cost given, an unknown primitive is reported first, because calibrating builds a deriver for it; otherwise the error is the first check that fails, in the order size, cost, primitive |
| Kdf.HashKey | lib/cryptography/kdf/pbkdf2.rb:58 | the hash key is exactly `KEYBYTES` long: a shorter password zero-padded, a longer one cut to its first `KEYBYTES` bytes |
| Kdf.Chain | lib/cryptography/kdf/pbkdf2.rb:131-163 | every chained value U_j is one hash output long |
| Kdf.Accumulated | lib/cryptography/kdf/pbkdf2.rb:117-118 | the xor accumulator stays one hash output long |
| Kdf.Rounds | lib/cryptography/kdf/pbkdf2.rb:149 | a block xors at least one U value, and exactly `iterations` of them when that is positive |
| Kdf.Block | lib/cryptography/kdf/pbkdf2.rb:115-166 | each block is one hash output long |
| Kdf.Seed | lib/cryptography/kdf/pbkdf2.rb:107-108 | the seed of a block is the salt followed by four counter bytes |
| Kdf.Blocks | lib/cryptography/kdf/pbkdf2.rb:102-113 | `n` blocks fill exactly `n * hlen` bytes |
| Kdf.BlockCount | lib/cryptography/kdf/pbkdf2.rb:73 | `(size.to_f / hlen).ceil` is the fewest blocks that cover `size` bytes |
| Kdf.DerivedKey | lib/cryptography/kdf/pbkdf2.rb:75-77 | the derived key is exactly `size` bytes |
| Kdf.BlocksAt | lib/cryptography/kdf/pbkdf2.rb:105-111 | block `i` of the concatenation sits at offset `hlen * i` |
| Kdf.DerivedKeyBlock | lib/cryptography/kdf/pbkdf2.rb:102-113 | byte `k` of block `i` of a derived key is byte `k` of F(password, salt ‖ BE32(i + 1)), the RFC 8018 block function with the 1-based block number |
| Kdf.BlockNextRound | lib/cryptography/kdf/pbkdf2.rb:149-163 | each extra round xors one more chained hash into the block |
| Kdf.SingleRound | lib/cryptography/kdf/pbkdf2.rb:135-149 | with a cost of one or less, a block is the single hash of its seed |
| Kdf.NonPositiveCostIsOneRound | lib/cryptography/kdf/pbkdf2.rb:66 | an unchecked per-call cost of zero or below derives the same key as a cost of one |
| Kdf.PasswordPrefixDecides | lib/cryptography/kdf/pbkdf2.rb:58 | two passwords that agree on their first `KEYBYTES` bytes derive the same key |
| Kdf.Derive | lib/cryptography/kdf/pbkdf2.rb:52-81 | `derive` returns exactly `DerivedKey`: the first `size` bytes of the blocks |
| Kdf.CalculateDerivedKey | lib/cryptography/kdf/pbkdf2.rb:102-113 | the buffer ends up holding the concatenated blocks of the original salt, and the salt part of the seed buffer is unchanged |
| Kdf.CalculateBlock | lib/cryptography/kdf/pbkdf2.rb:105-111 | one pass writes block `i + 1` after the first `i` blocks, and leaves the rest of the buffer unchanged |
| Kdf.WriteCounter | lib/cryptography/kdf/pbkdf2.rb:108 | the last four bytes of the salt buffer become BE32(n), and the rest is kept |
| Kdf.WriteBlock | lib/cryptography/kdf/pbkdf2.rb:111 | the block lands at its offset, and the bytes before and after it are kept |
| Kdf.CalculateChainedHmac | lib/cryptography/kdf/pbkdf2.rb:115-166 | the returned buffer is F(password, seed): U_1 xor … xor U_c |
| UtilPbkdf2.New | lib/cryptography/util/pbkdf2.rb:23-31 | defaults are `hmacsha512256` and 1000 iterations; built exactly when the primitive is known, iterations ≥ 0, and length > 0 and a multiple of 32; otherwise the error is the first check that fails, in the order primitive, iterations, length |
| UtilPbkdf2.Auth | lib/cryptography/util/pbkdf2.rb:83 | the binding hashes exactly when the key is `KEY_LEN` bytes |
| UtilPbkdf2.Folded | lib/cryptography/util/pbkdf2.rb:82-89 | the fold of one or more chained hashes is one hash output long |
| UtilPbkdf2.Seed | lib/cryptography/util/pbkdf2.rb:36 | the seed is the salt followed by four counter bytes |
| UtilPbkdf2.BytesOf | lib/cryptography/util/pbkdf2.rb:35 | a string has at least as many bytes as characters |
| UtilPbkdf2.LjustText | lib/cryptography/util/pbkdf2.rb:35 | `ljust(n, "\0")` keeps the string as its prefix and pads it with NUL characters to `n` characters |
| UtilPbkdf2.BytesOfLength | lib/cryptography/util/pbkdf2.rb:35 | a string has as many bytes as characters exactly when every character is one byte |
| UtilPbkdf2.BytesOfAppend | lib/cryptography/util/pbkdf2.rb:35 | the bytes of a concatenation are the concatenated bytes |
| UtilPbkdf2.BytesOfNuls | lib/cryptography/util/pbkdf2.rb:35 | `m` NUL characters are `m` zero bytes |
| UtilPbkdf2.PaddedKeyLength | ext/cryptography/na_cl/na_cl.h:14-19 | the padded password is exactly `n` bytes long exactly when it had at most `n` characters, all single-byte; then its bytes are the password's bytes zero-padded |
| UtilPbkdf2.LjustTextIdempotent | lib/cryptography/util/pbkdf2.rb:34-35 | padding the already padded password again for the next block changes nothing |
| UtilPbkdf2.KeyOfAccepted | lib/cryptography/util/pbkdf2.rb:33-40 | for an accepted password the key is the blocks over its zero-padded bytes |
| UtilPbkdf2.BlocksAgree | lib/cryptography/util/pbkdf2.rb:33-40 | over a byte password of at most `KEY_LEN` bytes, those blocks are the newer engine's derived key with the same size and cost |
| UtilPbkdf2.UtilBlocksSameRounds | lib/cryptography/util/pbkdf2.rb:82-89 | iteration counts that give the same number of rounds give the same blocks |
| UtilPbkdf2.KeyOf | lib/cryptography/util/pbkdf2.rb:33-40 | `key` succeeds exactly for passwords of at most `KEY_LEN` characters that are each one byte long, since `ljust` pads by characters and the binding wants exactly `KEY_LEN` bytes; a password with a multibyte character is refused; the result is `length` bytes |
| UtilPbkdf2.UtilBlocks | lib/cryptography/util/pbkdf2.rb:34-39 | `n` blocks fill `n * HMAC_LEN` bytes |
| UtilPbkdf2.ZeroIterationsLikeOne | lib/cryptography/util/pbkdf2.rb:69-72 | zero iterations, which the check admits, derive the same key as one |
| UtilPbkdf2.SingleIteration | lib/cryptography/util/pbkdf2.rb:82-89 | with one iteration or fewer, a block is the single hash of its seed |
| UtilPbkdf2.FoldedIsAccumulated | lib/cryptography/util/pbkdf2.rb:82-89 | the fold starting from U_1 equals the zero-started accumulation the newer engine uses |
| UtilPbkdf2.UtilBlocksAreKdfBlocks | lib/cryptography/util/pbkdf2.rb:33-40 | the blocks numbered from 1 by `'l>'` are the newer engine's blocks |
| UtilPbkdf2.AgreesWithKdf | lib/cryptography/util/pbkdf2.rb:33-40 | for every password of single-byte characters that the binding accepts, the older engine derives what `KDF::PBKDF2` derives with the same primitive, size and cost (zero counting as one) |
| UtilPbkdf2.Key | lib/cryptography/util/pbkdf2.rb:33-40 | the loop computes `KeyOf`, including its refusal of long and multibyte passwords |
| UtilPbkdf2.XorChainedHmac | lib/cryptography/util/pbkdf2.rb:82-89 | fails exactly for a password that is not `KEY_LEN` bytes; otherwise it returns U_1 xor … xor U_c |
| UtilPbkdf2.XorBytes | lib/cryptography/util/pbkdf2.rb:91-99 | the loop returns the bytewise xor of the two strings |
| UtilPbkdf2.XorAsWritten | lib/cryptography/util/pbkdf2.rb:91-99 | as written, the result is never shorter than the left operand, and a first xored byte below 0x80 comes out unchanged |
| UtilPbkdf2.AppendCodepoint | lib/cryptography/util/pbkdf2.rb:96 | appending an integer to a UTF-8 string adds one byte below 0x80 and two bytes from 0x80 up |
| UtilPbkdf2.XorAsWrittenIsXorIff | lib/cryptography/util/pbkdf2.rb:91-99 | `_xor` as written equals the bytewise xor exactly when no xored byte reaches 0x80; otherwise its result is longer than its input |
| UtilPbkdf2.XorAsWrittenCounterexample | lib/cryptography/util/pbkdf2.rb:91-99 | `_xor("\x80", "\x00")` as written yields the two bytes C2 80 instead of 80 |
| Serializable.Upper | lib/cryptography/serializable.rb:120 | upper-casing maps every character and keeps the length |
| Serializable.Lower | lib/cryptography/serializable.rb:54 | lower-casing maps every character and keeps the length |
| Serializable.LowerUpper | lib/cryptography/serializable.rb:54 | a lower-case symbol comes back from upper-casing then lower-casing |
| Serializable.ValueOf | lib/cryptography/serializable.rb:120 | `value_to_name.key(name)` finds a number exactly when the name is in the table, and only a number paired with that name |
| Serializable.NameOf | lib/cryptography/serializable.rb:54 | `value_to_name[number]` finds a name exactly when the number is in the table, and only a name paired with that number |
| Serializable.NameOfValueOf | lib/cryptography/serializable.rb:54 | in a table without duplicates, a name's number maps back to the name |
| Serializable.TablesDistinct | lib/cryptography/serializable.rb:5-24 | the `Context` and `Primitive` tables repeat neither a name nor a number |
| Serializable.EnumRoundTrip | lib/cryptography/serializable.rb:54 | a registered lower-case symbol is encoded as its number and decoded back to the same symbol |
| Serializable.DecodeField | lib/cryptography/serializable.rb:47-58 | bytes become a buffer; an enum becomes its lower-cased name, or an error for an unregistered number; the result matches the field's kind |
| Serializable.EncodeField | lib/cryptography/serializable.rb:113-124 | encoding succeeds exactly for a value of the field's kind; a buffer becomes its bytes; an enum is emitted exactly when its symbol is registered |
| Serializable.FieldRoundTrip | lib/cryptography/serializable.rb:47-58 | a value that fits its field is emitted, and decoding gives it back |
| Serializable.Decoded | lib/cryptography/serializable.rb:42-63 | the decoded hash only has names from the schema |
| Serializable.Encoded | lib/cryptography/serializable.rb:105-131 | the message only has schema names that were attributes |
| Serializable.DecodedFields | lib/cryptography/serializable.rb:42-63 | decoding succeeds exactly when every present field decodes; then each schema name is in the hash exactly when it was in the message, with the decoded value |
| Serializable.EncodedOk | lib/cryptography/serializable.rb:105-131 | encoding succeeds exactly when every schema attribute has its field's kind |
| Serializable.EncodedFields | lib/cryptography/serializable.rb:105-131 | each schema field is in the message exactly when it is emitted, with the emitted value |
| Serializable.RoundTrip | lib/cryptography/serializable.rb:42-131 | encoding a well-typed hash, then decoding, gives back its schema fields |
| Serializable.RoundTripFields | lib/cryptography/serializable.rb:42-131 | field by field: present in the message exactly when present in the hash, and decoding to the same value |
| Serializable.SchemaShare | lib/cryptography/serializable.rb:42-63 | a hash that agrees with the attributes on every schema name is their restriction to the schema |
| Serializable.DecodedFailsOnward | lib/cryptography/serializable.rb:43-62 | once a field fails to decode, the rest of the fields do not change the error |
| Serializable.EncodedFailsOnward | lib/cryptography/serializable.rb:109-128 | once a field fails to encode, the rest of the fields do not change the error |
| Serializable.FromProtocolBuffer | lib/cryptography/serializable.rb:42-63 | the loop over the fields computes `Decoded` |
| Serializable.ToProtocolBuffer | lib/cryptography/serializable.rb:105-131 | the loop over the fields computes `Encoded` |
| Serializable.FromS | lib/cryptography/serializable.rb:27-40 | unparseable bytes are a format error; otherwise the result is the decoded message |
| Serializable.Deserialized | lib/cryptography/serializable.rb:65-70 | a class that does not define `initialize!` fails with NoMethodError; one that does keeps the hash exactly when its check passes, and otherwise fails with that check's error |
| Serializable.ToS | lib/cryptography/serializable.rb:85-87 | succeeds exactly when the hash encodes, and yields the serialized message |
| Serializable.StringRoundTrip | lib/cryptography/serializable.rb:27-131 | with a codec that parses back what it writes, `from_s(to_s(x))` gives back x's schema fields |
| SymmetricKey.KeySchemaWellFormed | lib/cryptography/symmetric/key.rb:6-18 | the key schema has distinct field names and duplicate-free enum tables, and has no `protected` field |
| SymmetricKey.VerifyContext | lib/cryptography/symmetric/key.rb:107-113 | passes exactly when the stored context is registered and, when a context is asked for, equals it; an unregistered context is reported as such, and every failure is one of those two errors |
| SymmetricKey.VerifyPrimitive | lib/cryptography/symmetric/key.rb:115-121 | passes exactly when the stored primitive is registered and, when a primitive is asked for, equals it; an unregistered primitive is reported as such, and every failure is one of those two errors |
| SymmetricKey.VerifySize | lib/cryptography/symmetric/key.rb:123-126 | passes exactly when the bytes are a non-empty buffer; an empty buffer is "key size must be positive" |
| SymmetricKey.VerifySerializable | lib/cryptography/symmetric/key.rb:148-151 | passes exactly when the key is not `protected`, and otherwise refuses serialization |
| SymmetricKey.ValidationWith | lib/cryptography/symmetric/key.rb:20-27 | `on_initialize!` passes exactly when the context and the primitive are registered and the bytes are non-empty; an unregistered context is reported first, then an unregistered primitive |
| SymmetricKey.AccessWith | lib/cryptography/symmetric/key.rb:45-51 | `bytes` yields the key bytes exactly when both names are registered, each requested name matches (nil skips), and the key is not locked; a context mismatch and a locked key are reported as such |
| SymmetricKey.Signature | lib/cryptography/symmetric/key.rb:93-94 | the signature is `size` bytes |
| SymmetricKey.Locked | lib/cryptography/symmetric/key.rb:87-103 | `lock!` succeeds exactly for non-empty bytes and a positive calibrated cost; it adds `locked`, the kdf, its primitive and cost, and the signature, and keeps the bytes as the salt |
| SymmetricKey.Carried | lib/cryptography/symmetric/key.rb:70-72 | the unlocked key inherits exactly the context and the primitive |
| SymmetricKey.UnlockKdf | lib/cryptography/symmetric/key.rb:58-62 | the deriver has the key's size, the stored primitive (or the default) and the stored cost (or the calibrated one), and is built exactly when that size and cost are positive and the primitive names a hash |
| SymmetricKey.Unlocked | lib/cryptography/symmetric/key.rb:53-75 | an unlocked key is refused; otherwise unlocking succeeds exactly when the deriver rebuilds and the recomputed signature equals the stored one; the result has the derived bytes and `protected` |
| SymmetricKey.UnlockWithLockingPassword | lib/cryptography/symmetric/key.rb:53-103 | `unlock` with the locking password succeeds and yields the key derived from it with the original bytes as salt |
| SymmetricKey.LockedRecord | lib/cryptography/symmetric/key.rb:53-103 | from a hash that `lock!` wrote, `unlock` reads back the same deriver, the original bytes as salt, the stored signature, and the same context and primitive |
| SymmetricKey.ValidationReadsCore | lib/cryptography/symmetric/key.rb:107-126 | `on_initialize!` depends only on the context, the primitive and the bytes |
| SymmetricKey.LockKeepsValidation | lib/cryptography/symmetric/key.rb:40-42 | locking does not change the outcome of `on_initialize!` |
| SymmetricKey.LockedKeyHidesBytes | lib/cryptography/symmetric/key.rb:45-51 | a locked key hands out its bytes for no request |
| SymmetricKey.UnlockedKeyUsable | lib/cryptography/symmetric/key.rb:70-74 | the unlocked key passes `on_initialize!`, yields its bytes for the original context and primitive, has the original size, and is `protected` |
| SymmetricKey.AuthenticatedMessageContextAsWritten | lib/cryptography/serializable.rb:5-10 | with the context table as written, an `authenticated_message` key fails `on_initialize!` and `bytes`; the corrected table registers it |
| SymmetricKey.Generated | lib/cryptography/symmetric/key.rb:33-40 | a negative size fails; without a password every other size succeeds, and with one exactly a positive size with a positive calibrated cost; the hash holds the context, the primitive and the random bytes, and is locked exactly when a password was given |
| SymmetricKey.Base | lib/cryptography/symmetric/key.rb:34-38 | the fresh hash has exactly the context, the primitive and the bytes |
| SymmetricKey.Constructed | lib/cryptography/symmetric/key.rb:33-43 | succeeds exactly when the generated hash passes `on_initialize!`, and is then that hash |
| SymmetricKey.NewWithoutPassword | lib/cryptography/symmetric/key.rb:33-43 | without a password, construction succeeds exactly for a registered context and primitive and a positive size; the key is unlocked and yields its `size` random bytes |
| SymmetricKey.NewWithPassword | lib/cryptography/symmetric/key.rb:33-43 | with a password, construction succeeds for the same inputs; the key refuses `bytes` as locked, and unlocking it with that password gives a usable key |
| SymmetricKey.LockedBase | lib/cryptography/symmetric/key.rb:33-43 | a fresh registered, non-empty key locked with a password validates, hides its bytes, and unlocks with that password |
| SymmetricKey.LockedBaseHides | lib/cryptography/symmetric/key.rb:33-51 | a fresh registered, non-empty key locked with a password still passes `on_initialize!` and refuses `bytes` as locked |
| SymmetricKey.LockedKeepsNames | lib/cryptography/symmetric/key.rb:96-102 | `lock!` updates the hash in place: the context and the primitive are kept, and `locked` is set |
| SymmetricKey.SerializedAsWritten | lib/cryptography/serializable.rb:85-87 | `to_s` as written succeeds exactly when the hash encodes, and gives the serialized message with no check run |
| SymmetricKey.Serialized | lib/cryptography/symmetric/key.rb:29-31 | with `on_serialize!` run, a `protected` key is refused and any other key serializes as before |
| SymmetricKey.ProtectedKeySerializesAsWritten | lib/cryptography/serializable.rb:85-87 | as written, an unlocked `protected` key serializes with its derived bytes and without the flag; with the hook run it is refused |
| SymmetricKey.EncodesBytes | lib/cryptography/serializable.rb:105-131 | a key hash encodes with its bytes, and `protected` is never emitted |
| SymmetricKey.KeyRoundTrip | lib/cryptography/symmetric/key.rb:6-31 | a valid key that is not protected survives `to_s` then `from_s` and passes `on_initialize!` again |
| SymmetricKey.FromSAsWritten | lib/cryptography/serializable.rb:65-70 | as written, every string that decodes to a key hash ends in NoMethodError, and any other string keeps its decoding error |
| SymmetricKey.UnlockAsWritten | lib/cryptography/symmetric/key.rb:70-74 | as written, `unlock` never yields a key: with the right password `from_hash` ends in NoMethodError, otherwise the unlock error stands |
| SymmetricKey.RoundTripFailsAsWritten | lib/cryptography/serializable.rb:65-70 | the string of a valid unprotected key decodes, yet `deserialize` refuses it as written; with `on_initialize!` as the hook it is accepted |
| SymmetricKey.Key.OnInitialize | lib/cryptography/symmetric/key.rb:20-27 | reports the checks' outcome, freezes exactly on success, and keeps the attributes |
| SymmetricKey.Key.Lock | lib/cryptography/symmetric/key.rb:87-103 | the attributes become the locked hash, or stay unchanged with the error |
| SymmetricKey.Key.New | lib/cryptography/symmetric/key.rb:33-43 | a frozen key over the constructed hash, or the construction's error |
| SymmetricKey.Key.Bytes | lib/cryptography/symmetric/key.rb:45-51 | yields bytes only for an unlocked key holding a byte buffer, and then the stored bytes; a locked key whose names check out is refused as locked; a valid unlocked key asked without context or primitive always yields its bytes |
| SymmetricKey.Key.OnSerialize | lib/cryptography/symmetric/key.rb:29-31 | passes exactly when the key is not `protected` |
| SymmetricKey.Key.ToS | lib/cryptography/serializable.rb:85-87 | with `on_serialize!` run, succeeds exactly when the key is not `protected` and its hash encodes, giving the serialized message |
| SymmetricKey.Key.Deserialize | lib/cryptography/serializable.rb:65-70 | `deserialize` with `on_initialize!` as the hook: a frozen key over the given hash exactly when it passes that check, otherwise the check's error |
| SymmetricKey.Key.FromS | lib/cryptography/serializable.rb:27-40 | a key exactly when the bytes parse, decode and pass `on_initialize!`; the new key holds the decoded hash, is frozen and is valid |
| SymmetricKey.Key.Unlock | lib/cryptography/symmetric/key.rb:53-75 | a new frozen key over the unlocked hash exactly when unlocking succeeds |
| LegacyKey.Access | lib/cryptography/key.rb:37-43 | with every check stubbed, `bytes` yields the stored bytes whatever is asked |
| LegacyKey.Unlocked | lib/cryptography/key.rb:45-67 | unlock succeeds whenever the deriver rebuilds, with no locked or signature check; the result has the derived bytes and is marked `locked` |
| LegacyKey.LockedKeyExposesBytes | lib/cryptography/key.rb:37-43 | a locked key still yields its bytes for any request |
| LegacyKey.UnlockAcceptsAnyPassword | lib/cryptography/key.rb:45-67 | a locked key unlocks with every password, each giving the key derived from it |
| LegacyKey.SymmetricUnlockIsStricter | lib/cryptography/key.rb:45-67 | whatever the symmetric key's unlock accepts, this one accepts too, with the same bytes |
| LegacyKey.NewChecksOnlySize | lib/cryptography/key.rb:25-35 | construction checks neither the context nor the primitive; it fails only for a negative size or a deriver that cannot be built |
| LegacyKey.Key.Initialize | lib/cryptography/key.rb:20-23 | `initialize!` only freezes |
| LegacyKey.Key.Lock | lib/cryptography/key.rb:71-87 | the same locked hash as the symmetric key's `lock!`, or unchanged with the error |
| LegacyKey.Key.New | lib/cryptography/key.rb:25-35 | a frozen key over the generated hash, or the generation error |
| LegacyKey.Key.Bytes | lib/cryptography/key.rb:37-43 | yields exactly when a byte buffer is stored, whatever is asked and whether or not the key is locked, and yields that buffer |
| LegacyKey.Key.Unlock | lib/cryptography/key.rb:45-67 | a new frozen key over the unlocked hash exactly when unlocking succeeds |
| Authentication.ImplementationOf | lib/cryptography/symmetric/authenticated_message.rb:51-53 | the message's hash exists exactly when its primitive is a symbol naming one |
| Authentication.Authenticate | lib/cryptography/symmetric/authenticated_message.rb:55-63 | succeeds exactly when the key yields its bytes for the message's own context and primitive; the authenticator is the hash of the message under those bytes, one hash output long |
| Authentication.VerifyAuthenticatorSize | lib/cryptography/symmetric/authenticated_message.rb:85-87 | passes exactly when the authenticator is the hash's size; an unknown primitive is reported as such, and a wrong size as `Tampered` |
| Authentication.VerifyAuthenticator | lib/cryptography/symmetric/authenticated_message.rb:85-91 | passes exactly when the authenticator has the hash's size and, given a key, equals the recomputed hash; a wrong size or a mismatch is `Tampered` |
| Authentication.Validation | lib/cryptography/symmetric/authenticated_message.rb:22-29 | `on_initialize!` passes exactly for the `authenticated_message` context with an authenticator of the hash's size; it reports a wrong context first, then an unknown primitive |
| Authentication.Revealed | lib/cryptography/symmetric/authenticated_message.rb:43-47 | `contents(key)` yields the message exactly when the authenticator is sized and equals the hash recomputed with the key |
| Authentication.Generated | lib/cryptography/symmetric/authenticated_message.rb:31-38 | the hash holds the `authenticated_message` context, the message, an authenticator buffer, and a primitive exactly when the key has one |
| Authentication.Constructed | lib/cryptography/symmetric/authenticated_message.rb:31-41 | the generated hash when it passes `on_initialize!`; a failure to generate is passed on |
| Authentication.Construction | lib/cryptography/symmetric/authenticated_message.rb:31-41 | a message is made exactly with a key that yields its bytes for `authenticated_message` under a primitive naming a hash; the result always passes `on_initialize!` and holds the context, the key's primitive, the message and its hash |
| Authentication.ContentsWithMakingKey | lib/cryptography/symmetric/authenticated_message.rb:31-47 | `contents` with the key the message was made with gives back the message |
| Authentication.ContentsRejectsTampering | lib/cryptography/symmetric/authenticated_message.rb:85-91 | a wrong-size authenticator, or one that differs from the key's hash, makes `contents` fail with `Tampered` |
| Authentication.MessageKeyUsable | lib/cryptography/symmetric/authenticated_message.rb:15-20 | `AuthenticatedMessage.key` builds a key with which a message can be made and opened again |
| Authentication.MessageSchemaWellFormed | lib/cryptography/symmetric/authenticated_message.rb:8-13 | the message schema has distinct field names and duplicate-free enum tables |
| Authentication.MessageRoundTrip | lib/cryptography/symmetric/authenticated_message.rb:8-13 | a well-typed message survives `to_s` then `from_s` unchanged |
| Authentication.FromSAsWritten | lib/cryptography/serializable.rb:65-70 | as written, every string that decodes to a message hash ends in NoMethodError, and any other string keeps its decoding error |
| Authentication.MessageRoundTripFailsAsWritten | lib/cryptography/serializable.rb:65-70 | a message's own string decodes back to it, yet `deserialize` refuses it as written; with `on_initialize!` as the hook a valid message is accepted |
| Authentication.AuthenticatedMessage.OnInitialize | lib/cryptography/symmetric/authenticated_message.rb:22-29 | reports the checks' outcome, freezes exactly on success, and keeps the attributes |
| Authentication.AuthenticatedMessage.Key | lib/cryptography/symmetric/authenticated_message.rb:15-20 | a key in the `authenticated_message` context with the default primitive and key size, exactly when construction succeeds |
| Authentication.AuthenticatedMessage.New | lib/cryptography/symmetric/authenticated_message.rb:31-41 | a frozen message over the constructed hash, or the construction's error |
| Authentication.AuthenticatedMessage.Contents | lib/cryptography/symmetric/authenticated_message.rb:43-47 | yields only the stored message, and only when the authenticator is sized and equals the hash recomputed with the key; a valid message whose stored authenticator equals that hash always yields it |
| Authentication.AuthenticatedMessage.Deserialize | lib/cryptography/serializable.rb:65-70 | `deserialize` with `on_initialize!` as the hook: a frozen message over the hash exactly when it passes that check, otherwise the check's error |
| Authentication.AuthenticatedMessage.FromS | lib/cryptography/serializable.rb:27-40 | a message exactly when the bytes parse, decode and pass `on_initialize!`; the new message holds the decoded hash, is frozen and is valid |

## Left out

- `PBKDF2.calibrate`, `benchmark` and the cost cache time the hash on the running machine. The calibrated cost is the parameter `Kdf.Calibration`, and the `GC.disable`/`GC.enable` bracket is not modelled.
- The keyed hashes themselves (HMAC-SHA-256, HMAC-SHA-512/256) are foreign C code. They are the parameter `Sodium.Mac`, constrained only by the output size. `KEYBYTES` and `BYTES` are 32 for both.
- `Sodium::Buffer`'s memory locking, zeroing and constant-time comparison are security properties the model does not express. Comparisons are plain equality.
- The protocol-buffer wire format is the parameter `Serializable.Codec`. Only what the library does around it is modelled: walking the fields, converting enums and byte buffers, and skipping absent attributes.
- Required-field enforcement and the int64 range check of the protocol-buffer library are not modelled. An enum number unknown to the table is an error value.
- Ruby's `upcase`/`downcase` are modelled on ASCII letters only.
- `(size.to_f / block_size).ceil` is modelled as exact integer ceiling, which is what the float computes for every size a buffer can hold.
- `[i].pack('l>')` and `[i].pack('N')` are modelled as the value modulo 2^32. Block numbers past 2^31 need keys of more than 64 GiB.
- `Symmetric::Key#context` and `#primitive` are protected, so `AuthenticatedMessage#initialize` cannot call `key.primitive` on another object. The model reads the key's `primitive` attribute directly.
- UtilPbkdf2.New: `ext/cryptography/na_cl/na_cl.c:14` comments out the `HMACSHA256` initialisation, so `Cryptography::NaCl::Auth::HMACSHA256` is undefined. Loading `lib/cryptography/util/pbkdf2.rb` then raises NameError at line 5, and `Util::PBKDF2` does not load at all. The model registers both hashes, as the `IMPLEMENTATIONS` list intends.
- The `Primitive` numbers follow `lib/cryptography/serializable.rb:12-24` (100 and 101). The test vectors use 1000 and 1001.
- `Context[sym]` and `Primitive[sym]` (`lib/cryptography/symmetric/key.rb:109,117`) are answered by the `ProtocolBuffers::Enum` library, which is not part of this model. The model assumes they look up the upper-cased name in the table (`Serializable.Registered`), the same conversion `to_protocol_buffer` uses (`lib/cryptography/serializable.rb:120`). Under that reading the test key's primitive `:xsalsa20poly1305` (`test/cryptography/symmetric/key_test.rb:7`) is not in the `Primitive` table as written (`lib/cryptography/serializable.rb:12-24`), so both the source and the model refuse those test keys as an unrecognized primitive. `test/cryptography/serializable_test.rb:21` declares that name only in the test's own enum.
- An attribute of the wrong Ruby type is read as absent: a non-symbol context or primitive is unregistered, and a non-integer `kdf_cost` is nil. Where the source calls a method on missing or non-buffer `bytes` (`bytesize` in `_verify_size!`, `lock!` and `unlock`), Ruby raises NoMethodError and the model gives `MissingBuffer`.
- SymmetricKey.AccessWith: `bytes` yields whatever is stored under `:bytes`, and yields nil without raising when nothing is. The model gives `MissingBuffer` there instead. A key that passed `on_initialize!` always holds a non-empty buffer, so this only differs for a hash that never passed it.
- LegacyKey.Access: likewise, `Cryptography::Key#bytes` yields nil for a missing `:bytes`, and the model gives `MissingBuffer`.
- `_verify_kdf! :pbkdf2` compares a literal with itself and always passes, so the stored `kdf` field is never read. The model does not read it either.
- `Sodium::Buffer.key` with a negative size is an error (`Sodium.RandomKey`). The random source is the parameter `random`.
- Sodium::Auth's own key-length checks on the message key are not modelled. An authenticated message is keyed with whatever bytes the symmetric key yields.
- `lib/cryptography/password.rb` is not part of this model. The commented-out versioned serializer in `lib/cryptography/serializable.rb:134-417` is dead code and is not modelled.
- Authentication.AuthenticatedMessage.ToS carries no contract of its own. It is `Serializable.ToS` over the message schema, whose contract is stated and proved.
- SymmetricKey.Validation, SymmetricKey.Access, SymmetricKey.Constructed, SymmetricKey.KeySchema and Authentication.MessageSchema use the corrected `ContextTable`, which registers `AUTHENTICATED_MESSAGE` (10) in place of `VAULT` (10). A `:vault` key, which the source accepts, is rejected by the model as an unrecognized context. The table as written is `SourceContextTable`, and `SymmetricKey.AuthenticatedMessageContextAsWritten` states what it does.
- SymmetricKey.Key.ToS runs `on_serialize!` before encoding, through `Serialized`, and so refuses a `protected` key. The source's `to_s` never runs it; `SymmetricKey.SerializedAsWritten` and `SymmetricKey.ProtectedKeySerializesAsWritten` model that.
- SymmetricKey.Key.Deserialize, SymmetricKey.Key.FromS, SymmetricKey.Key.Unlock, Authentication.AuthenticatedMessage.Deserialize and Authentication.AuthenticatedMessage.FromS run the entity's `on_initialize!` as the hook of `deserialize`. As written, `deserialize` sends `initialize!`, which neither class defines, so these all end in NoMethodError. `FromSAsWritten`, `UnlockAsWritten` and the two `RoundTripFailsAsWritten` lemmas state that.
- UtilPbkdf2.UtilBlocks, UtilPbkdf2.Key and UtilPbkdf2.XorChainedHmac use the corrected bytewise xor (`Octets.Xor`, computed by `XorBytes`). As written, `_xor` appends code points, so once a xored byte reaches 0x80 the accumulator grows past the hash's length. Over the default 1000 iterations such a byte all but surely comes up, and the next `_xor` reads past the end of `right` and fails on `b ^ nil` (TypeError). `XorAsWritten` and its lemmas model the code as written.
- UtilPbkdf2.KeyOf: the salt is taken as bytes. In Ruby, `salt + [i].pack('l>')` joins a UTF-8 salt to a binary counter. When the salt has a non-ASCII character and the counter has a byte of 0x80 or more (block 128 onward), that raises Encoding::CompatibilityError, which the model does not reproduce.
- Kdf.HashKey: a password longer than `KEYBYTES` is cut to its first `KEYBYTES` bytes, because the hash reads a fixed-length key from a pointer. Ruby does not warn about this. `Kdf.PasswordPrefixDecides` states the consequence.

## Findings

| source | as written | input that shows it | evidently intended | confidence | as-written member | corrected member |
|---|---|---|---|---|---|---|
| lib/cryptography/serializable.rb:5-10 | the `Context` enum registers `UNKNOWN` and `VAULT` only | any key with context `:authenticated_message`, as built by `AuthenticatedMessage.key` | `AUTHENTICATED_MESSAGE` registered, as the test vectors (context number 10) and `authenticated_message.rb:15-20` expect | not executed | SymmetricKey.AuthenticatedMessageContextAsWritten | Authentication.MessageKeyUsable |
| lib/cryptography/serializable.rb:85-87 | `to_s` never calls `on_serialize!`, so `_verify_serializable!` (symmetric/key.rb:148-151) never runs | the key yielded by `unlock(password)`, which has `protected: true` | a protected key refuses to serialize | not executed | SymmetricKey.ProtectedKeySerializesAsWritten | SymmetricKey.Serialized |
| lib/cryptography/util/pbkdf2.rb:91-99 | each xored byte is appended to `""` as an Integer, which adds a UTF-8 code point | `_xor("\x80", "\x00")` yields C2 80 | the bytewise xor, one byte per input byte | not executed; holds where string literals are UTF-8 (Ruby 2.0 and later) | UtilPbkdf2.XorAsWrittenCounterexample | UtilPbkdf2.XorBytes |
| lib/cryptography/serializable.rb:65-70 | `deserialize` sends `initialize!`, which neither `Symmetric::Key` nor `AuthenticatedMessage` defines (both define `on_initialize!`) | any string produced by `to_s`, or a correct password given to `Symmetric::Key#unlock` (symmetric/key.rb:70 reaches `from_hash`): NoMethodError | `deserialize` runs the class's `on_initialize!` | not executed | SymmetricKey.RoundTripFailsAsWritten | SymmetricKey.Key.Deserialize |

=== FILE: authenticated_message.dfy ===
/**
 * `Cryptography::Symmetric::AuthenticatedMessage`: a message together with
 * its keyed hash under a symmetric key of the `authenticated_message`
 * context. `contents(key)` hands the message back only when the stored
 * authenticator has the hash's size and equals the hash recomputed with
 * the given key.
 */
module Authentication {
  import opened Octets
  import opened Outcomes
  import opened Sodium
  import opened Serializable
  import Kdf
  import SymmetricKey

  /** The `serialize` block. */
  const MessageSchema: Schema := [
    Field("context", EnumField(ContextTable), 0),
    Field("primitive", EnumField(PrimitiveTable), 1),
    Field("message", BytesField, 2),
    Field("authenticator", BytesField, 3)
  ]

  /** The context every authenticated message, and the key it is made with, carries. */
  const MessageContext: string := "authenticated_message"

  /** `implementation`: the keyed hash registered under the message's primitive, if any. */
  function ImplementationOf(a: Attributes): (h: Option<Hmac>)
    ensures h.Some? <==> SymmetricKey.SymbolAt(a, "primitive").Some? && Implementation(SymmetricKey.SymbolAt(a, "primitive").value).Some?
  {
    match SymmetricKey.SymbolAt(a, "primitive")
    case None => None
    case Some(p) => Implementation(p)
  }

  /**
   * `authenticate(key)`: the key's bytes, asked for under the message's own
   * context and primitive, key the hash of the message.
   */
  function Authenticate(a: Attributes, key: Attributes, mac: Mac): (r: Result<Bytes>)
    ensures r.Ok? <==>
              && SymmetricKey.Access(key, SymmetricKey.SymbolAt(a, "context"), SymmetricKey.SymbolAt(a, "primitive")).Ok?
              && ImplementationOf(a).Some? && SymmetricKey.HasBuffer(a, "message")
    ensures r.Ok? ==>
              r.value == mac(ImplementationOf(a).value, a["message"].bytes,
                             SymmetricKey.Access(key, SymmetricKey.SymbolAt(a, "context"), SymmetricKey.SymbolAt(a, "primitive")).value)
    ensures r.Ok? ==> |r.value| == ImplementationOf(a).value.OutputBytes()
  {
    var bytes :- SymmetricKey.Access(key, SymmetricKey.SymbolAt(a, "context"), SymmetricKey.SymbolAt(a, "primitive"));
    var h := ImplementationOf(a);
    if h.None? then Err(UnrecognizedPrimitive)
    else if !SymmetricKey.HasBuffer(a, "message") then Err(MissingBuffer)
    else Ok(mac(h.value, a["message"].bytes, bytes))
  }

  /** The stored authenticator has the size of the hash the primitive names. */
  predicate AuthenticatorSized(a: Attributes) {
    ImplementationOf(a).Some? && SymmetricKey.HasBuffer(a, "authenticator")
    && |a["authenticator"].bytes| == ImplementationOf(a).value.OutputBytes()
  }

  /** `_verify_authenticator!` without a key: the size check alone. */
  function VerifyAuthenticatorSize(a: Attributes): (o: Outcome)
    ensures o.Pass? <==> AuthenticatorSized(a)
    ensures ImplementationOf(a).None? ==> o == Fail(UnrecognizedPrimitive)
    ensures ImplementationOf(a).Some? && SymmetricKey.HasBuffer(a, "authenticator") && !AuthenticatorSized(a) ==> o == Fail(Tampered)
  {
    var h := ImplementationOf(a);
    if h.None? then Fail(UnrecognizedPrimitive)
    else if !SymmetricKey.HasBuffer(a, "authenticator") then Fail(MissingBuffer)
    else Need(|a["authenticator"].bytes| == h.value.OutputBytes(), Tampered)
  }

  /**
   * `_verify_authenticator!(key)`: the authenticator must have the hash's
   * size, and, when a key is given, equal the hash recomputed with it.
   */
  function VerifyAuthenticator(a: Attributes, key: Option<Attributes>, mac: Mac): (o: Outcome)
    ensures o.Pass? <==>
              && AuthenticatorSized(a)
              && (key.Some? ==> Authenticate(a, key.value, mac).Ok? && a["authenticator"] == Buffer(Authenticate(a, key.value, mac).value))
    ensures ImplementationOf(a).Some? && SymmetricKey.HasBuffer(a, "authenticator") && !AuthenticatorSized(a) ==> o == Fail(Tampered)
    ensures (AuthenticatorSized(a) && key.Some? && Authenticate(a, key.value, mac).Ok?
             && a["authenticator"] != Buffer(Authenticate(a, key.value, mac).value)) ==> o == Fail(Tampered)
  {
    var size := VerifyAuthenticatorSize(a);
    if size.Fail? then size
    else if key.None? then Pass
    else
      var t := Authenticate(a, key.value, mac);
      if t.Err? then Fail(t.error)
      else Need(a["authenticator"] == Buffer(t.value), Tampered)
  }

  /**
   * `on_initialize!`'s checks: the context must be `authenticated_message`,
   * the primitive must name a keyed hash, and the authenticator must have
   * that hash's size. No key is involved.
   */
  function Validation(a: Attributes): (o: Outcome)
    ensures o.Pass? <==> "context" in a && a["context"] == Sym(MessageContext) && AuthenticatorSized(a)
    ensures !("context" in a && a["context"] == Sym(MessageContext)) ==> o == Fail(NotAuthenticatedMessage)
    ensures "context" in a && a["context"] == Sym(MessageContext) && ImplementationOf(a).None? ==> o == Fail(UnrecognizedPrimitive)
  {
    if !("context" in a && a["context"] == Sym(MessageContext)) then Fail(NotAuthenticatedMessage)
    else if ImplementationOf(a).None? then Fail(UnrecognizedPrimitive)
    else VerifyAuthenticatorSize(a)
  }

  /**
   * `contents(key)`: the message, once the authenticator has passed its
   * size check and matches the hash recomputed with `key`.
   */
  function Revealed(a: Attributes, key: Attributes, mac: Mac): (r: Result<Bytes>)
    ensures r.Ok? <==>
              && AuthenticatorSized(a) && Authenticate(a, key, mac).Ok?
              && a["authenticator"] == Buffer(Authenticate(a, key, mac).value)
    ensures r.Ok? ==> r.value == a["message"].bytes
  {
    var o := VerifyAuthenticator(a, Some(key), mac);
    if o.Fail? then Err(o.error) else Ok(a["message"].bytes)
  }

  /**
   * The hash `initialize(key, message)` builds before `on_initialize!`: the
   * context, the key's primitive and the message, then the authenticator
   * computed with the key.
   */
  function Generated(key: Attributes, message: Bytes, mac: Mac): (r: Result<Attributes>)
    ensures r.Ok? ==>
              && "context" in r.value && "message" in r.value
              && r.value["context"] == Sym(MessageContext) && r.value["message"] == Buffer(message)
              && "authenticator" in r.value && r.value["authenticator"].Buffer?
              && ("primitive" in r.value <==> "primitive" in key)
  {
    var base := map["context" := Sym(MessageContext), "message" := Buffer(message)]
                + (if "primitive" in key then map["primitive" := key["primitive"]] else map[]);
    var authenticator :- Authenticate(base, key, mac);
    Ok(base["authenticator" := Buffer(authenticator)])
  }

  /** `initialize` as a whole: the generated hash, if it passes `on_initialize!`. */
  function Constructed(key: Attributes, message: Bytes, mac: Mac): (r: Result<Attributes>)
    ensures r.Ok? ==> Validation(r.value).Pass? && r == Generated(key, message, mac)
    ensures Generated(key, message, mac).Err? ==> r == Generated(key, message, mac)
  {
    var a :- Generated(key, message, mac);
    var o := Validation(a);
    if o.Fail? then Err(o.error) else Ok(a)
  }

  /**
   * A message can be made exactly with a key that hands out its bytes for
   * `authenticated_message` use under its own primitive, when that
   * primitive names a keyed hash; the result always passes
   * `on_initialize!` and carries the hash of the message under the key's
   * bytes.
   */
  lemma Construction(key: Attributes, message: Bytes, mac: Mac)
    ensures Constructed(key, message, mac) == Generated(key, message, mac)
    ensures Constructed(key, message, mac).Ok? <==>
              && SymmetricKey.SymbolAt(key, "primitive").Some?
              && SymmetricKey.Access(key, Some(MessageContext), SymmetricKey.SymbolAt(key, "primitive")).Ok?
              && Implementation(SymmetricKey.SymbolAt(key, "primitive").value).Some?
    ensures Constructed(key, message, mac).Ok? ==>
              var a := Constructed(key, message, mac).value;
              && a["context"] == Sym(MessageContext)
              && a["primitive"] == key["primitive"]
              && a["message"] == Buffer(message)
              && a["authenticator"] == Buffer(mac(Implementation(key["primitive"].name).value, message, key["bytes"].bytes))
  {
    var base := map["context" := Sym(MessageContext), "message" := Buffer(message)]
                + (if "primitive" in key then map["primitive" := key["primitive"]] else map[]);
    assert SymmetricKey.SymbolAt(base, "context") == Some(MessageContext);
    assert SymmetricKey.SymbolAt(base, "primitive") == SymmetricKey.SymbolAt(key, "primitive");
    assert SymmetricKey.HasBuffer(base, "message");
    var g := Generated(key, message, mac);
    if g.Ok? {
      var a := g.value;
      assert a == base["authenticator" := Buffer(Authenticate(base, key, mac).value)];
      assert ImplementationOf(a) == ImplementationOf(base);
      assert AuthenticatorSized(a);
    }
  }

  /** `contents` with the key a message was made with gives back the message. */
  lemma ContentsWithMakingKey(key: Attributes, message: Bytes, mac: Mac)
    requires Constructed(key, message, mac).Ok?
    ensures Revealed(Constructed(key, message, mac).value, key, mac) == Ok(message)
  {
    Construction(key, message, mac);
    var a := Constructed(key, message, mac).value;
    var base := map["context" := Sym(MessageContext), "message" := Buffer(message)]
                + (if "primitive" in key then map["primitive" := key["primitive"]] else map[]);
    assert a == base["authenticator" := a["authenticator"]];
    assert SymmetricKey.SymbolAt(a, "context") == SymmetricKey.SymbolAt(base, "context");
    assert SymmetricKey.SymbolAt(a, "primitive") == SymmetricKey.SymbolAt(base, "primitive");
    assert Authenticate(a, key, mac) == Authenticate(base, key, mac);
  }

  /**
   * `contents` fails with `Tampered` for a key whose hash of the message
   * differs from the stored authenticator, and for an authenticator of the
   * wrong size whatever the key.
   */
  lemma ContentsRejectsTampering(a: Attributes, key: Attributes, mac: Mac)
    requires Validation(a).Pass? || (ImplementationOf(a).Some? && SymmetricKey.HasBuffer(a, "authenticator"))
    ensures !AuthenticatorSized(a) ==> Revealed(a, key, mac) == Err(Tampered)
    ensures (AuthenticatorSized(a) && Authenticate(a, key, mac).Ok?
             && a["authenticator"] != Buffer(Authenticate(a, key, mac).value)) ==> Revealed(a, key, mac) == Err(Tampered)
  {
  }

  /**
   * `AuthenticatedMessage.key(password)` builds a key every message can be
   * made with: the default hash's primitive and key size, in the
   * `authenticated_message` context. Without a password it is usable at
   * once, and a message made with it opens with it.
   */
  lemma MessageKeyUsable(random: Bytes, message: Bytes, mac: Mac, calibrated: Kdf.Calibration)
    requires |random| == HmacSha512256.KeyBytes()
    ensures SymmetricKey.Constructed(MessageContext, DefaultPrimitive, HmacSha512256.KeyBytes(), None, random, mac, calibrated).Ok?
    ensures var key := SymmetricKey.Constructed(MessageContext, DefaultPrimitive, HmacSha512256.KeyBytes(), None, random, mac, calibrated).value;
            && Constructed(key, message, mac).Ok?
            && Revealed(Constructed(key, message, mac).value, key, mac) == Ok(message)
  {
    assert Upper(MessageContext) == "AUTHENTICATED_MESSAGE";
    assert ContextTable[1].0 == "AUTHENTICATED_MESSAGE";
    assert Upper(DefaultPrimitive) == "HMACSHA512256";
    assert PrimitiveTable[4].0 == "HMACSHA512256";
    SymmetricKey.NewWithoutPassword(MessageContext, DefaultPrimitive, HmacSha512256.KeyBytes(), random, mac, calibrated);
    var key := SymmetricKey.Constructed(MessageContext, DefaultPrimitive, HmacSha512256.KeyBytes(), None, random, mac, calibrated).value;
    assert key["primitive"] == Sym(DefaultPrimitive);
    Construction(key, message, mac);
    ContentsWithMakingKey(key, message, mac);
  }

  lemma MessageSchemaWellFormed()
    ensures UniqueNames(MessageSchema) && DistinctTables(MessageSchema)
  {
    TablesDistinct();
  }

  /** Restricting a hash to a schema that covers all its names leaves it as it is. */
  lemma ShareOfCovered(schema: Schema, a: Attributes)
    requires a.Keys <= Names(schema)
    ensures (map n | n in a && n in Names(schema) :: a[n]) == a
  {
  }

  /**
   * A message survives `to_s` then `from_s` (over a codec that parses back
   * what it wrote) unchanged.
   */
  lemma MessageRoundTrip(codec: Codec, a: Attributes)
    requires WellTyped(MessageSchema, a) && a.Keys <= Names(MessageSchema)
    requires Encoded(MessageSchema, a).Ok?
    requires codec.parse(codec.serialize(Encoded(MessageSchema, a).value)) == Some(Encoded(MessageSchema, a).value)
    ensures Serializable.ToS(codec, MessageSchema, a).Ok?
    ensures Serializable.FromS(codec, MessageSchema, Serializable.ToS(codec, MessageSchema, a).value) == Ok(a)
  {
    MessageSchemaWellFormed();
    StringRoundTrip(codec, MessageSchema, a);
    ShareOfCovered(MessageSchema, a);
  }

  /**
   * `from_s` as written: `AuthenticatedMessage` defines only `on_initialize!`,
   * so `deserialize`'s `initialize!` fails on every string that decodes.
   */
  function FromSAsWritten(codec: Codec, s: Bytes): (r: Result<Attributes>)
    ensures Serializable.FromS(codec, MessageSchema, s).Ok? ==> r == Err(UndefinedMethod)
    ensures Serializable.FromS(codec, MessageSchema, s).Err? ==> r == Serializable.FromS(codec, MessageSchema, s)
  {
    var a :- Serializable.FromS(codec, MessageSchema, s);
    Serializable.Deserialized(Undefined, a)
  }

  /**
   * As written, a message read back from its own string is refused; with
   * `on_initialize!` as the hook it is accepted whenever it was valid.
   */
  lemma MessageRoundTripFailsAsWritten(codec: Codec, a: Attributes)
    requires WellTyped(MessageSchema, a) && a.Keys <= Names(MessageSchema)
    requires Encoded(MessageSchema, a).Ok?
    requires codec.parse(codec.serialize(Encoded(MessageSchema, a).value)) == Some(Encoded(MessageSchema, a).value)
    ensures Serializable.ToS(codec, MessageSchema, a).Ok?
    ensures FromSAsWritten(codec, Serializable.ToS(codec, MessageSchema, a).value) == Err(UndefinedMethod)
    ensures Serializable.FromS(codec, MessageSchema, Serializable.ToS(codec, MessageSchema, a).value) == Ok(a)
    ensures Validation(a).Pass? ==> Serializable.Deserialized(Defined(Validation), a) == Ok(a)
  {
    MessageRoundTrip(codec, a);
  }

  class AuthenticatedMessage {
    var attributes: Attributes
    var frozen: bool

    /** A constructed message: frozen, and its hash passes `on_initialize!`. */
    ghost predicate Valid()
      reads this
    {
      frozen && Validation(attributes).Pass?
    }

    constructor Allocate(a: Attributes)
      ensures attributes == a && !frozen
    {
      attributes := a;
      frozen := false;
    }

    /** `on_initialize!`: the three verifiers, then `freeze`. */
    method OnInitialize() returns (o: Outcome)
      modifies this
      ensures attributes == old(attributes)
      ensures o == Validation(attributes)
      ensures frozen == (old(frozen) || o.Pass?)
    {
      o := Validation(attributes);
      if o.Pass? {
        frozen := true;
      }
    }

    /** `self.key(password)`; `random` stands for the bytes `Sodium::Buffer.key` draws. */
    static method Key(password: Option<Bytes>, random: Bytes, mac: Mac, calibrated: Kdf.Calibration) returns (r: Result<SymmetricKey.Key>)
      requires |random| == HmacSha512256.KeyBytes()
      ensures r.Ok? <==> SymmetricKey.Constructed(MessageContext, DefaultPrimitive, HmacSha512256.KeyBytes(), password, random, mac, calibrated).Ok?
      ensures r.Ok? ==> fresh(r.value) && r.value.Valid()
                        && r.value.attributes == SymmetricKey.Constructed(MessageContext, DefaultPrimitive, HmacSha512256.KeyBytes(), password, random, mac, calibrated).value
    {
      r := SymmetricKey.Key.New(MessageContext, DefaultPrimitive, HmacSha512256.KeyBytes(), password, random, mac, calibrated);
    }

    /** `initialize(key, message)`: the hash, then the authenticator, then `on_initialize!`. */
    static method New(key: SymmetricKey.Key, message: Bytes, mac: Mac) returns (r: Result<AuthenticatedMessage>)
      ensures r.Ok? <==> Constructed(key.attributes, message, mac).Ok?
      ensures r.Ok? ==> fresh(r.value) && r.value.Valid() && r.value.attributes == Constructed(key.attributes, message, mac).value
      ensures r.Err? ==> Constructed(key.attributes, message, mac) == Err(r.error)
    {
      var base := map["context" := Sym(MessageContext), "message" := Buffer(message)]
                  + (if "primitive" in key.attributes then map["primitive" := key.attributes["primitive"]] else map[]);
      var m := new AuthenticatedMessage.Allocate(base);
      var authenticator := Authenticate(m.attributes, key.attributes, mac);
      if authenticator.Err? {
        return Err(authenticator.error);
      }
      m.attributes := m.attributes["authenticator" := Buffer(authenticator.value)];
      var o := m.OnInitialize();
      if o.Fail? {
        return Err(o.error);
      }
      r := Ok(m);
    }

    /** `contents(key)` */
    function Contents(key: SymmetricKey.Key, mac: Mac): (r: Result<Bytes>)
      reads this, key
      ensures r.Ok? ==> && AuthenticatorSized(attributes)
                        && Authenticate(attributes, key.attributes, mac) == Ok(attributes["authenticator"].bytes)
                        && r.value == attributes["message"].bytes
      ensures Valid() && Authenticate(attributes, key.attributes, mac) == Ok(attributes["authenticator"].bytes) ==> r.Ok?
    {
      Revealed(attributes, key.attributes, mac)
    }

    /** `to_s`: this class has no serialization hook. */
    function ToS(codec: Codec): Result<Bytes>
      reads this
    {
      Serializable.ToS(codec, MessageSchema, attributes)
    }

    /** `deserialize(attributes)`: a fresh object holding the hash, then the initialisation hook. */
    static method Deserialize(a: Attributes) returns (r: Result<AuthenticatedMessage>)
      ensures r.Ok? <==> Serializable.Deserialized(Defined(Validation), a).Ok?
      ensures r.Ok? <==> Validation(a).Pass?
      ensures r.Ok? ==> fresh(r.value) && r.value.attributes == a && r.value.Valid()
      ensures r.Err? ==> Validation(a) == Fail(r.error)
    {
      var m := new AuthenticatedMessage.Allocate(a);
      var o := m.OnInitialize();
      if o.Fail? {
        return Err(o.error);
      }
      r := Ok(m);
    }

    /** `from_s(string)` */
    static method FromS(codec: Codec, s: Bytes) returns (r: Result<AuthenticatedMessage>)
      ensures r.Ok? <==> Serializable.FromS(codec, MessageSchema, s).Ok? && Validation(Serializable.FromS(codec, MessageSchema, s).value).Pass?
      ensures r.Ok? ==> fresh(r.value) && r.value.attributes == Serializable.FromS(codec, MessageSchema, s).value && r.value.Valid()
    {
      var parsed := codec.parse(s);
      if parsed.None? {
        return Err(FormatError);
      }
      var a := FromProtocolBuffer(MessageSchema, parsed.value);
      if a.Err? {
        return Err(a.error);
      }
      r := Deserialize(a.value);
    }
  }
}

=== FILE: kdf_pbkdf2.dfy ===
/**
 * `Cryptography::KDF::PBKDF2`: password-based key derivation after
 * RFC 8018 section 5.2, over the keyed hashes registered in `Sodium::Auth`.
 *
 * The derivation is specified by the functions `Chain`, `Accumulated`,
 * `Block`, `Blocks` and `DerivedKey`; the methods `Derive`,
 * `CalculateDerivedKey` and `CalculateChainedHmac` follow the buffer-filling
 * code step by step and are proved to compute them.
 */
module Kdf {
  import opened Octets
  import opened Outcomes
  import opened Sodium

  /**
   * `PBKDF2.cost(primitive)`: the per-primitive default cost, obtained by
   * timing the hash on the running machine and therefore a parameter here.
   */
  type Calibration = string -> int

  /** A configured deriver: output `size`, keyed hash `primitive`, iteration count `cost`. */
  datatype Pbkdf2 = Pbkdf2(size: int, primitive: string, cost: int) {
    /** What the constructor's three verifiers establish. */
    predicate Valid() {
      size > 0 && cost > 0 && Implementation(primitive).Some?
    }

    /** `implementation` */
    function Hmac(): Hmac
      requires Valid()
    {
      Implementation(primitive).value
    }
  }

  /**
   * `PBKDF2.new(size, :primitive => p, :cost => c)`: a missing primitive is
   * the library default. A missing cost is the calibrated one, and
   * calibrating benchmarks a deriver for the primitive, which fails for an
   * unknown primitive before anything else is checked. Then the size, the
   * cost and the primitive are checked in that order.
   */
  function New(size: int, primitive: Option<string>, cost: Option<int>, calibrated: Calibration): (r: Result<Pbkdf2>)
    ensures var p := primitive.GetOr(DefaultPrimitive);
            var c := cost.GetOr(calibrated(p));
            && (r.Ok? <==> size > 0 && c > 0 && Implementation(p).Some?)
            && (r.Ok? ==> r.value.Valid() && r.value == Pbkdf2(size, p, c))
            && (cost.None? && Implementation(p).None? ==> r == Err(UnrecognizedHmac))
            && ((cost.Some? || Implementation(p).Some?) && size <= 0 ==> r == Err(SizeNotPositive))
            && ((cost.Some? || Implementation(p).Some?) && size > 0 && c <= 0 ==> r == Err(CostNotPositive))
            && (size > 0 && c > 0 && Implementation(p).None? ==> r == Err(UnrecognizedHmac))
  {
    var p := primitive.GetOr(DefaultPrimitive);
    if cost.None? && Implementation(p).None? then Err(UnrecognizedHmac)
    else
      var c := cost.GetOr(calibrated(p));
      if size <= 0 then Err(SizeNotPositive)
      else if c <= 0 then Err(CostNotPositive)
      else if Implementation(p).None? then Err(UnrecognizedHmac)
      else Ok(Pbkdf2(size, p, c))
  }

  /**
   * The key the hash sees: the password zero-padded to `KEYBYTES`. The hash
   * is handed a pointer and reads exactly `KEYBYTES` bytes from it, so the
   * bytes of a longer password past that point never reach it.
   */
  function HashKey(h: Hmac, password: Bytes): (k: Bytes)
    ensures |k| == h.KeyBytes()
    ensures |password| >= h.KeyBytes() ==> k == password[..h.KeyBytes()]
    ensures |password| < h.KeyBytes() ==> k == Ljust(password, h.KeyBytes())
  {
    Ljust(password, h.KeyBytes())[..h.KeyBytes()]
  }

  /** U_j of RFC 8018: U_1 is the hash of the seed, every later U the hash of its predecessor. */
  function Chain(mac: Mac, h: Hmac, key: Bytes, seed: Bytes, j: nat): (u: Bytes)
    requires j >= 1
    ensures |u| == h.OutputBytes()
  {
    if j == 1 then mac(h, seed, key) else mac(h, Chain(mac, h, key, seed, j - 1), key)
  }

  /** U_1 xor ... xor U_n, accumulated into a buffer that starts all zero. */
  function Accumulated(mac: Mac, h: Hmac, key: Bytes, seed: Bytes, n: nat): (x: Bytes)
    ensures |x| == h.OutputBytes()
  {
    if n == 0 then Zeros(h.OutputBytes())
    else Xor(Accumulated(mac, h, key, seed, n - 1), Chain(mac, h, key, seed, n))
  }

  /** How many U values a block xors together: the first, then `iterations - 1` more, none when that is negative. */
  function Rounds(iterations: int): (n: nat)
    ensures n >= 1
    ensures iterations >= 1 ==> n == iterations
  {
    if iterations < 1 then 1 else iterations
  }

  /** The block function F of RFC 8018 for one seed. */
  function Block(mac: Mac, h: Hmac, key: Bytes, seed: Bytes, iterations: int): (b: Bytes)
    ensures |b| == h.OutputBytes()
  {
    Accumulated(mac, h, key, seed, Rounds(iterations))
  }

  /** The seed of 0-based block `i`: the salt followed by the block number `i + 1`, four bytes big-endian. */
  function Seed(salt: Bytes, i: nat): (s: Bytes)
    ensures |s| == |salt| + 4 && s[..|salt|] == salt
  {
    salt + Pack32BE(i + 1)
  }

  /** The first `n` blocks, in order. */
  function Blocks(mac: Mac, h: Hmac, key: Bytes, salt: Bytes, iterations: int, n: nat): (s: Bytes)
    ensures |s| == n * h.OutputBytes()
  {
    if n == 0 then []
    else Blocks(mac, h, key, salt, iterations, n - 1) + Block(mac, h, key, Seed(salt, n - 1), iterations)
  }

  /** `(dklen.to_f / hlen).ceil`: the fewest blocks that cover `size` bytes. */
  function BlockCount(size: int, blockSize: int): (n: nat)
    requires size > 0 && blockSize > 0
    ensures (n - 1) * blockSize < size <= n * blockSize
  {
    var n := (size + blockSize - 1) / blockSize;
    DivisionBounds(size + blockSize - 1, blockSize);
    n
  }

  lemma DivisionBounds(a: int, b: int)
    requires a >= 0 && b > 0
    ensures (a / b) * b <= a < (a / b) * b + b
  {
  }

  /**
   * `derive(password, salt, :cost => c)`: the first `size` bytes of the
   * concatenated blocks, using the per-call cost when one is given and the
   * configured cost otherwise. A per-call cost is not checked: one below 2
   * derives with a single round.
   */
  function DerivedKey(kdf: Pbkdf2, mac: Mac, password: Bytes, salt: Bytes, cost: Option<int>): (dk: Bytes)
    requires kdf.Valid()
    ensures |dk| == kdf.size
  {
    var h := kdf.Hmac();
    var n := BlockCount(kdf.size, h.OutputBytes());
    Blocks(mac, h, HashKey(h, password), salt, cost.GetOr(kdf.cost), n)[..kdf.size]
  }

  /** Block `i` of the concatenation sits at offset `hlen * i`. */
  lemma {:induction false} BlocksAt(mac: Mac, h: Hmac, key: Bytes, salt: Bytes, iterations: int, n: nat, i: nat, k: nat)
    requires i < n && k < h.OutputBytes()
    ensures Blocks(mac, h, key, salt, iterations, n)[i * h.OutputBytes() + k]
         == Block(mac, h, key, Seed(salt, i), iterations)[k]
  {
    if i < n - 1 {
      BlocksAt(mac, h, key, salt, iterations, n - 1, i, k);
    }
  }

  /**
   * Byte `k` of block `i` of a derived key is byte `k` of F(password,
   * salt || BE32(i + 1)): every block uses its own 1-based block number.
   */
  lemma DerivedKeyBlock(kdf: Pbkdf2, mac: Mac, password: Bytes, salt: Bytes, cost: Option<int>, i: nat, k: nat)
    requires kdf.Valid() && k < kdf.Hmac().OutputBytes()
    requires i * kdf.Hmac().OutputBytes() + k < kdf.size
    ensures DerivedKey(kdf, mac, password, salt, cost)[i * kdf.Hmac().OutputBytes() + k]
         == Block(mac, kdf.Hmac(), HashKey(kdf.Hmac(), password), salt + Pack32BE(i + 1), cost.GetOr(kdf.cost))[k]
  {
    var h := kdf.Hmac();
    var n := BlockCount(kdf.size, h.OutputBytes());
    BlocksAt(mac, h, HashKey(h, password), salt, cost.GetOr(kdf.cost), n, i, k);
  }

  /** Each block xors exactly `Rounds(iterations)` chained hashes: one more with every extra round. */
  lemma BlockNextRound(mac: Mac, h: Hmac, key: Bytes, seed: Bytes, iterations: int)
    requires iterations >= 1
    ensures Block(mac, h, key, seed, iterations + 1)
         == Xor(Block(mac, h, key, seed, iterations), Chain(mac, h, key, seed, iterations + 1))
  {
  }

  /** With one round, or a cost below one, a block is the single hash of its seed. */
  lemma SingleRound(mac: Mac, h: Hmac, key: Bytes, seed: Bytes, iterations: int)
    requires iterations <= 1
    ensures Block(mac, h, key, seed, iterations) == mac(h, seed, key)
  {
    var u := Chain(mac, h, key, seed, 1);
    assert Rounds(iterations) == 1;
    assert Accumulated(mac, h, key, seed, 1) == Xor(Accumulated(mac, h, key, seed, 0), u);
    assert Accumulated(mac, h, key, seed, 0) == Zeros(|u|);
    XorZerosLeft(u);
  }

  /** A per-call cost of zero or below derives exactly what a cost of one derives. */
  lemma NonPositiveCostIsOneRound(kdf: Pbkdf2, mac: Mac, password: Bytes, salt: Bytes, cost: int)
    requires kdf.Valid() && cost <= 0
    ensures DerivedKey(kdf, mac, password, salt, Some(cost)) == DerivedKey(kdf, mac, password, salt, Some(1))
  {
    var h := kdf.Hmac();
    var key := HashKey(h, password);
    var n := BlockCount(kdf.size, h.OutputBytes());
    BlocksSameRounds(mac, h, key, salt, cost, 1, n);
  }

  lemma {:induction false} BlocksSameRounds(mac: Mac, h: Hmac, key: Bytes, salt: Bytes, a: int, b: int, n: nat)
    requires Rounds(a) == Rounds(b)
    ensures Blocks(mac, h, key, salt, a, n) == Blocks(mac, h, key, salt, b, n)
  {
    if n > 0 {
      BlocksSameRounds(mac, h, key, salt, a, b, n - 1);
    }
  }

  /**
   * Only the first `KEYBYTES` bytes of a password matter: two passwords that
   * agree there derive the same key, whatever follows.
   */
  lemma PasswordPrefixDecides(kdf: Pbkdf2, mac: Mac, p1: Bytes, p2: Bytes, salt: Bytes, cost: Option<int>)
    requires kdf.Valid()
    requires |p1| >= kdf.Hmac().KeyBytes() && |p2| >= kdf.Hmac().KeyBytes()
    requires p1[..kdf.Hmac().KeyBytes()] == p2[..kdf.Hmac().KeyBytes()]
    ensures DerivedKey(kdf, mac, p1, salt, cost) == DerivedKey(kdf, mac, p2, salt, cost)
  {
  }

  /**
   * `derive`: pad the password, append four blank bytes to the salt, size a
   * zeroed buffer to whole blocks, fill it block by block and return its
   * first `size` bytes.
   */
  method Derive(kdf: Pbkdf2, mac: Mac, password: Bytes, salt: Bytes, cost: Option<int>) returns (dk: Bytes)
    requires kdf.Valid()
    ensures dk == DerivedKey(kdf, mac, password, salt, cost)
  {
    var h := kdf.Hmac();
    var key := HashKey(h, password);
    var padded := Rpad(salt, 4);
    var seed := new Byte[|padded|](k requires 0 <= k < |padded| => padded[k]);
    var iterations := cost.GetOr(kdf.cost);
    var blockSize := h.OutputBytes();
    var bufferSize := blockSize * BlockCount(kdf.size, blockSize);
    var buffer := new Byte[bufferSize](_ => 0);
    CalculateDerivedKey(mac, h, buffer, key, seed, iterations, kdf.size, blockSize);
    assert seed[..|salt|] == padded[..|salt|] == salt;
    dk := buffer[..kdf.size];
  }

  /**
   * `_calculate_derived_key`: for every block, overwrite the last four bytes
   * of the salt buffer with the block number and store the block at its
   * offset in `dk`.
   */
  method CalculateDerivedKey(mac: Mac, h: Hmac, dk: array<Byte>, key: Bytes, salt: array<Byte>, iterations: int, dklen: int, hlen: int)
    requires dklen > 0 && hlen == h.OutputBytes()
    requires dk.Length == hlen * BlockCount(dklen, hlen)
    requires salt.Length >= 4 && dk != salt
    modifies dk, salt
    ensures salt[..salt.Length - 4] == old(salt[..salt.Length - 4])
    ensures dk[..] == Blocks(mac, h, key, old(salt[..salt.Length - 4]), iterations, BlockCount(dklen, hlen))
  {
    ghost var prefix := salt[..salt.Length - 4];
    var blocks := BlockCount(dklen, hlen);
    var i, offset := 0, 0;
    while i < blocks
      invariant 0 <= i <= blocks && offset == hlen * i
      invariant salt.Length == |prefix| + 4 && salt[..|prefix|] == prefix
      invariant dk[..offset] == Blocks(mac, h, key, prefix, iterations, i)
    {
      NextOffset(hlen, i, blocks);
      CalculateBlock(mac, h, dk, key, salt, iterations, i, offset, prefix);
      i, offset := i + 1, offset + hlen;
    }
    assert dk[..] == dk[..offset];
  }

  /** The block after block `i` starts `hlen` bytes further on and still fits. */
  lemma NextOffset(hlen: nat, i: nat, blocks: nat)
    requires i < blocks
    ensures hlen * (i + 1) == hlen * i + hlen && hlen * i + hlen <= hlen * blocks
  {
  }

  /** One pass of `_calculate_derived_key`'s loop: block `i` is written at `offset`. */
  method CalculateBlock(mac: Mac, h: Hmac, dk: array<Byte>, key: Bytes, salt: array<Byte>, iterations: int,
                        i: nat, offset: nat, ghost prefix: Bytes)
    requires salt.Length == |prefix| + 4 && salt[..|prefix|] == prefix && dk != salt
    requires offset + h.OutputBytes() <= dk.Length
    requires dk[..offset] == Blocks(mac, h, key, prefix, iterations, i)
    modifies dk, salt
    ensures salt[..|prefix|] == prefix
    ensures dk[..offset + h.OutputBytes()] == Blocks(mac, h, key, prefix, iterations, i + 1)
    ensures dk[offset + h.OutputBytes()..] == old(dk[offset + h.OutputBytes()..])
  {
    WriteCounter(salt, i + 1);
    assert salt[..] == Seed(prefix, i);
    var block := CalculateChainedHmac(mac, h, key, salt, iterations);
    WriteBlock(dk, offset, block);
  }

  /** `salt[salt.bytesize - 4, 4] = [n].pack('N')` */
  method WriteCounter(salt: array<Byte>, n: int)
    requires salt.Length >= 4
    modifies salt
    ensures salt[..] == old(salt[..salt.Length - 4]) + Pack32BE(n)
  {
    var counter := Pack32BE(n);
    var last := salt.Length - 4;
    salt[last], salt[last + 1], salt[last + 2], salt[last + 3] := counter[0], counter[1], counter[2], counter[3];
  }

  /** `dk[offset, hlen] = block` */
  method WriteBlock(dk: array<Byte>, offset: nat, block: Bytes)
    requires offset + |block| <= dk.Length
    modifies dk
    ensures dk[..offset + |block|] == old(dk[..offset]) + block
    ensures dk[offset + |block|..] == old(dk[offset + |block|..])
  {
    forall k | 0 <= k < |block| {
      dk[offset + k] := block[k];
    }
  }

  /**
   * `_calculate_chained_hmac`: hash the salt into `auth`, xor it into the
   * zeroed `xor`, then `iterations - 1` times rehash `auth` in place and xor
   * it in again.
   */
  method CalculateChainedHmac(mac: Mac, h: Hmac, key: Bytes, salt: array<Byte>, iterations: int) returns (result: Bytes)
    ensures result == Block(mac, h, key, salt[..], iterations)
  {
    var seed := salt[..];
    var auth := new Byte[h.OutputBytes()](_ => 0);
    var xor := new Byte[h.OutputBytes()](_ => 0);
    AuthInto(mac, h, auth, seed, key);
    XorZerosLeft(auth[..]);
    MemXor(xor, auth);
    var round := 0;
    while round < iterations - 1
      invariant 0 <= round && (round <= iterations - 1 || round == 0)
      invariant auth[..] == Chain(mac, h, key, seed, round + 1)
      invariant xor[..] == Accumulated(mac, h, key, seed, round + 1)
    {
      AuthInto(mac, h, auth, auth[..], key);
      MemXor(xor, auth);
      round := round + 1;
    }
    result := xor[..];
  }
}

=== FILE: legacy_key.dfy ===
/**
 * `Cryptography::Key`, the older key class. It builds and locks its hash
 * exactly as `Cryptography::Symmetric::Key` does, but every `_verify_*`
 * check accepts, its initialisation hook only freezes, and the key `unlock`
 * yields is marked `locked`.
 */
module LegacyKey {
  import opened Octets
  import opened Outcomes
  import opened Sodium
  import opened Serializable
  import Kdf
  import SymmetricKey

  /** `bytes(context, primitive)`: with every check stubbed, the stored bytes whatever is asked. */
  function Access(a: Attributes, context: Option<string>, primitive: Option<string>): (r: Result<Bytes>)
    ensures r.Ok? <==> SymmetricKey.HasBuffer(a, "bytes")
    ensures r.Ok? ==> r.value == a["bytes"].bytes
  {
    if SymmetricKey.HasBuffer(a, "bytes") then Ok(a["bytes"].bytes) else Err(MissingBuffer)
  }

  /**
   * `unlock(password)`: the deriver is rebuilt from the stored metadata as
   * in the symmetric key, but the key need not be locked and the signature
   * is never compared. The new hash is marked `locked`.
   */
  function Unlocked(a: Attributes, password: Bytes, mac: Mac, calibrated: Kdf.Calibration): (r: Result<Attributes>)
    ensures r.Ok? <==> SymmetricKey.HasBuffer(a, "bytes") && SymmetricKey.UnlockKdf(a, calibrated).Ok?
    ensures r.Ok? ==>
              r.value == SymmetricKey.Carried(a) + map[
                "bytes" := Buffer(Kdf.DerivedKey(SymmetricKey.UnlockKdf(a, calibrated).value, mac, password, a["bytes"].bytes, None)),
                "locked" := Flag(true)]
  {
    if !SymmetricKey.HasBuffer(a, "bytes") then Err(MissingBuffer)
    else
      var kdf :- SymmetricKey.UnlockKdf(a, calibrated);
      var key := Kdf.DerivedKey(kdf, mac, password, a["bytes"].bytes, None);
      Ok(SymmetricKey.Carried(a) + map["bytes" := Buffer(key), "locked" := Flag(true)])
  }

  /**
   * A locked key hands out its salt bytes to anyone, whatever context and
   * primitive they name.
   */
  lemma LockedKeyExposesBytes(a: Attributes, password: Bytes, mac: Mac, calibrated: Kdf.Calibration,
                              context: Option<string>, primitive: Option<string>)
    requires SymmetricKey.Locked(a, password, mac, calibrated).Ok?
    ensures SymmetricKey.Truthy(SymmetricKey.Locked(a, password, mac, calibrated).value, "locked")
    ensures Access(SymmetricKey.Locked(a, password, mac, calibrated).value, context, primitive) == Ok(a["bytes"].bytes)
  {
  }

  /**
   * Once a key is locked, `unlock` succeeds for every password, and each
   * password yields the bytes derived from it, marked `locked` but readable.
   */
  lemma UnlockAcceptsAnyPassword(a: Attributes, password: Bytes, other: Bytes, mac: Mac, calibrated: Kdf.Calibration)
    requires SymmetricKey.Locked(a, password, mac, calibrated).Ok?
    ensures var locked := SymmetricKey.Locked(a, password, mac, calibrated).value;
            var kdf := Kdf.Pbkdf2(|a["bytes"].bytes|, DefaultPrimitive, calibrated(DefaultPrimitive));
            && kdf.Valid()
            && Unlocked(locked, other, mac, calibrated).Ok?
            && Unlocked(locked, other, mac, calibrated).value["locked"] == Flag(true)
            && Access(Unlocked(locked, other, mac, calibrated).value, None, None)
               == Ok(Kdf.DerivedKey(kdf, mac, other, a["bytes"].bytes, None))
  {
    var locked := SymmetricKey.Locked(a, password, mac, calibrated).value;
    var kdf := Kdf.Pbkdf2(|a["bytes"].bytes|, DefaultPrimitive, calibrated(DefaultPrimitive));
    assert SymmetricKey.UnlockKdf(locked, calibrated) == Ok(kdf);
  }

  /**
   * Every password the symmetric key's `unlock` accepts, this one accepts
   * too, and both derive the same bytes from it.
   */
  lemma SymmetricUnlockIsStricter(a: Attributes, password: Bytes, mac: Mac, calibrated: Kdf.Calibration)
    requires SymmetricKey.Unlocked(a, password, mac, calibrated).Ok?
    ensures Unlocked(a, password, mac, calibrated).Ok?
    ensures Unlocked(a, password, mac, calibrated).value["bytes"]
         == SymmetricKey.Unlocked(a, password, mac, calibrated).value["bytes"]
  {
  }

  /**
   * Construction checks nothing of the context or the primitive: without a
   * password it fails only for a negative size; with one, only where the
   * deriver cannot be built. The bytes are the `size` random bytes.
   */
  lemma NewChecksOnlySize(context: string, primitive: string, size: int, password: Option<Bytes>,
                          random: Bytes, mac: Mac, calibrated: Kdf.Calibration)
    requires size >= 0 ==> |random| == size
    ensures password.None? ==>
              (SymmetricKey.Generated(context, primitive, size, password, random, mac, calibrated).Ok? <==> size >= 0)
    ensures password.Some? ==>
              (SymmetricKey.Generated(context, primitive, size, password, random, mac, calibrated).Ok?
               <==> size > 0 && calibrated(DefaultPrimitive) > 0)
    ensures SymmetricKey.Generated(context, primitive, size, password, random, mac, calibrated).Ok? ==>
              var a := SymmetricKey.Generated(context, primitive, size, password, random, mac, calibrated).value;
              && a["context"] == Sym(context) && a["primitive"] == Sym(primitive)
              && Access(a, None, None) == Ok(random) && |random| == size
  {
  }

  class Key {
    var attributes: Attributes
    var frozen: bool

    constructor Allocate(a: Attributes)
      ensures attributes == a && !frozen
    {
      attributes := a;
      frozen := false;
    }

    /** `initialize!`: freeze, nothing else. */
    method Initialize()
      modifies this
      ensures attributes == old(attributes) && frozen
    {
      frozen := true;
    }

    /** `lock!(password)`: the same derivation and record as the symmetric key's. */
    method Lock(password: Bytes, mac: Mac, calibrated: Kdf.Calibration) returns (o: Outcome)
      requires !frozen
      modifies this
      ensures !frozen
      ensures SymmetricKey.Locked(old(attributes), password, mac, calibrated).Ok? ==>
                o == Pass && attributes == SymmetricKey.Locked(old(attributes), password, mac, calibrated).value
      ensures SymmetricKey.Locked(old(attributes), password, mac, calibrated).Err? ==>
                o == Fail(SymmetricKey.Locked(old(attributes), password, mac, calibrated).error) && attributes == old(attributes)
    {
      if !SymmetricKey.HasBuffer(attributes, "bytes") {
        return Fail(MissingBuffer);
      }
      var bytes := attributes["bytes"].bytes;
      var kdf := Kdf.New(|bytes|, None, None, calibrated);
      if kdf.Err? {
        return Fail(kdf.error);
      }
      var key := Kdf.Derive(kdf.value, mac, password, bytes, None);
      var signature := Kdf.Derive(kdf.value, mac, password, key, Some(1));
      attributes := attributes + SymmetricKey.LockRecord(kdf.value, signature);
      o := Pass;
    }

    /** `initialize(context, primitive, size, password)`; `random` stands for `Sodium::Buffer.key(size)`. */
    static method New(context: string, primitive: string, size: int, password: Option<Bytes>,
                      random: Bytes, mac: Mac, calibrated: Kdf.Calibration) returns (r: Result<Key>)
      requires size >= 0 ==> |random| == size
      ensures r.Ok? <==> SymmetricKey.Generated(context, primitive, size, password, random, mac, calibrated).Ok?
      ensures r.Ok? ==> fresh(r.value) && r.value.frozen
                        && r.value.attributes == SymmetricKey.Generated(context, primitive, size, password, random, mac, calibrated).value
      ensures r.Err? ==> SymmetricKey.Generated(context, primitive, size, password, random, mac, calibrated) == Err(r.error)
    {
      var bytes := RandomKey(size, random);
      if bytes.Err? {
        return Err(bytes.error);
      }
      var key := new Key.Allocate(SymmetricKey.Base(context, primitive, bytes.value));
      if password.Some? {
        var locked := key.Lock(password.value, mac, calibrated);
        if locked.Fail? {
          return Err(locked.error);
        }
      }
      key.Initialize();
      r := Ok(key);
    }

    /** `bytes(context, primitive)` */
    function Bytes(context: Option<string>, primitive: Option<string>): (r: Result<Bytes>)
      reads this
      ensures r.Ok? <==> SymmetricKey.HasBuffer(attributes, "bytes")
      ensures r.Ok? ==> r.value == attributes["bytes"].bytes
    {
      Access(attributes, context, primitive)
    }

    /** `unlock(password)`: a new, frozen key; this one is left as it is. */
    method Unlock(password: Bytes, mac: Mac, calibrated: Kdf.Calibration) returns (r: Result<Key>)
      ensures r.Ok? <==> Unlocked(attributes, password, mac, calibrated).Ok?
      ensures r.Ok? ==> fresh(r.value) && r.value.frozen
                        && r.value.attributes == Unlocked(attributes, password, mac, calibrated).value
    {
      if !SymmetricKey.HasBuffer(attributes, "bytes") {
        return Err(MissingBuffer);
      }
      var kdf := SymmetricKey.UnlockKdf(attributes, calibrated);
      if kdf.Err? {
        return Err(kdf.error);
      }
      var key := Kdf.Derive(kdf.value, mac, password, attributes["bytes"].bytes, None);
      var unlocked := new Key.Allocate(SymmetricKey.Carried(attributes) + map["bytes" := Buffer(key), "locked" := Flag(true)]);
      unlocked.Initialize();
      r := Ok(unlocked);
    }
  }
}

=== FILE: octets.dfy ===
/**
 * Byte strings and the few byte-level operations the library relies on:
 * zero padding (`Sodium::Buffer.ljust`, `Sodium::Buffer.rpad`,
 * `String#ljust(n, "\0")`), bytewise exclusive or, and the four-byte
 * big-endian counter written by `Array#pack('N')` and `Array#pack('l>')`.
 */
module Octets {

  type Byte = bv8
  type Bytes = seq<Byte>

  const Two32: int := 0x1_0000_0000

  function Zeros(n: nat): (z: Bytes)
    ensures |z| == n
    ensures forall k :: 0 <= k < n ==> z[k] == 0
  {
    seq(n, _ => 0)
  }

  /**
   * `s` followed by zero bytes up to a length of `n`; a string already at
   * least `n` bytes long is returned as it is, never truncated.
   */
  function Ljust(s: Bytes, n: int): (r: Bytes)
    ensures |r| == if |s| < n then n else |s|
    ensures r[..|s|] == s
    ensures forall k :: |s| <= k < |r| ==> r[k] == 0
  {
    if |s| < n then s + Zeros(n - |s|) else s
  }

  /** Padding twice is padding once: the util engine pads before every block. */
  lemma LjustIdempotent(s: Bytes, n: int)
    ensures Ljust(Ljust(s, n), n) == Ljust(s, n)
  {
  }

  /** `s` followed by `n` zero bytes. */
  function Rpad(s: Bytes, n: nat): (r: Bytes)
    ensures |r| == |s| + n
    ensures r[..|s|] == s
    ensures forall k :: |s| <= k < |r| ==> r[k] == 0
  {
    s + Zeros(n)
  }

  /** Bytewise exclusive or of `a` with the first `|a|` bytes of `b`. */
  function Xor(a: Bytes, b: Bytes): (r: Bytes)
    requires |a| <= |b|
    ensures |r| == |a|
    ensures forall k :: 0 <= k < |a| ==> r[k] == a[k] ^ b[k]
  {
    seq(|a|, k requires 0 <= k < |a| => a[k] ^ b[k])
  }

  /** An all-zero buffer is the identity of `Xor` (the xor accumulator starts empty). */
  lemma XorZerosLeft(b: Bytes)
    ensures Xor(Zeros(|b|), b) == b
  {
    var z := Xor(Zeros(|b|), b);
    forall k | 0 <= k < |b|
      ensures z[k] == b[k]
    {
      assert z[k] == 0 ^ b[k];
    }
  }

  /** Xor-ing the same bytes twice restores the original. */
  lemma XorInvolution(a: Bytes, b: Bytes)
    requires |a| <= |b|
    ensures Xor(Xor(a, b), b) == a
  {
    var x := Xor(Xor(a, b), b);
    forall k | 0 <= k < |a|
      ensures x[k] == a[k]
    {
      assert x[k] == (a[k] ^ b[k]) ^ b[k];
    }
  }

  /**
   * The low 32 bits of `n`, most significant byte first. Ruby's `'N'`
   * (unsigned, network order) and `'l>'` (signed, big-endian) directives
   * both write these four bytes, keeping only the low 32 bits of a wider
   * integer.
   */
  function Pack32BE(n: int): (r: Bytes)
    ensures |r| == 4
  {
    var u := n % Two32;
    [ (u / 0x100_0000) as Byte,
      ((u / 0x1_0000) % 0x100) as Byte,
      ((u / 0x100) % 0x100) as Byte,
      (u % 0x100) as Byte ]
  }

  /** The unsigned big-endian number four bytes spell. */
  function Unpack32BE(b: Bytes): (n: int)
    requires |b| == 4
    ensures 0 <= n < Two32
  {
    (b[0] as int) * 0x100_0000 + (b[1] as int) * 0x1_0000 + (b[2] as int) * 0x100 + (b[3] as int)
  }

  lemma ByteOfDigit(x: int)
    requires 0 <= x < 0x100
    ensures (x as Byte) as int == x
  {
    assert x % 0x100 == x;
  }

  lemma DigitOfByte(b: Byte)
    ensures 0 <= b as int < 0x100 && (b as int) as Byte == b
  {
  }

  /** The four base-256 digits of a 32-bit number add back up to it. */
  lemma DigitsSum(u: int)
    requires 0 <= u < Two32
    ensures u == (u / 0x100_0000) * 0x100_0000 + ((u / 0x1_0000) % 0x100) * 0x1_0000
               + ((u / 0x100) % 0x100) * 0x100 + u % 0x100
  {
    var q1 := u / 0x100;
    var q2 := q1 / 0x100;
    assert u == q1 * 0x100 + u % 0x100;
    assert q1 == q2 * 0x100 + q1 % 0x100;
    assert q2 == (q2 / 0x100) * 0x100 + q2 % 0x100;
    assert q2 == u / 0x1_0000;
    assert q2 / 0x100 == u / 0x100_0000;
  }

  /** Four base-256 digits are recovered from the number they spell. */
  lemma DigitsOf(b0: int, b1: int, b2: int, b3: int)
    requires 0 <= b0 < 0x100 && 0 <= b1 < 0x100 && 0 <= b2 < 0x100 && 0 <= b3 < 0x100
    ensures var n := b0 * 0x100_0000 + b1 * 0x1_0000 + b2 * 0x100 + b3;
      n / 0x100_0000 == b0 && (n / 0x1_0000) % 0x100 == b1 && (n / 0x100) % 0x100 == b2 && n % 0x100 == b3
  {
    var n := b0 * 0x100_0000 + b1 * 0x1_0000 + b2 * 0x100 + b3;
    assert n / 0x100 == b0 * 0x1_0000 + b1 * 0x100 + b2;
    assert n / 0x1_0000 == b0 * 0x100 + b1;
  }

  lemma PackDigits(d0: int, d1: int, d2: int, d3: int)
    requires 0 <= d0 < 0x100 && 0 <= d1 < 0x100 && 0 <= d2 < 0x100 && 0 <= d3 < 0x100
    ensures Pack32BE(d0 * 0x100_0000 + d1 * 0x1_0000 + d2 * 0x100 + d3)
         == [d0 as Byte, d1 as Byte, d2 as Byte, d3 as Byte]
  {
    var n := d0 * 0x100_0000 + d1 * 0x1_0000 + d2 * 0x100 + d3;
    DigitsOf(d0, d1, d2, d3);
    assert n % Two32 == n;
    var p := Pack32BE(n);
    assert p[0] == (n / 0x100_0000) as Byte == d0 as Byte;
    assert p[1] == ((n / 0x1_0000) % 0x100) as Byte == d1 as Byte;
    assert p[2] == ((n / 0x100) % 0x100) as Byte == d2 as Byte;
    assert p[3] == (n % 0x100) as Byte == d3 as Byte;
  }

  /** Packing keeps exactly the low 32 bits of the counter. */
  lemma UnpackPack(n: int)
    ensures Unpack32BE(Pack32BE(n)) == n % Two32
  {
    var u := n % Two32;
    var d0, d1, d2, d3 := u / 0x100_0000, (u / 0x1_0000) % 0x100, (u / 0x100) % 0x100, u % 0x100;
    DigitsSum(u);
    ByteOfDigit(d0); ByteOfDigit(d1); ByteOfDigit(d2); ByteOfDigit(d3);
    var p := Pack32BE(n);
    assert p == [d0 as Byte, d1 as Byte, d2 as Byte, d3 as Byte];
    assert Unpack32BE(p) == d0 * 0x100_0000 + d1 * 0x1_0000 + d2 * 0x100 + d3;
  }

  /** Every four-byte string is the packing of the number it spells. */
  lemma PackUnpack(b: Bytes)
    requires |b| == 4
    ensures Pack32BE(Unpack32BE(b)) == b
  {
    var d0, d1, d2, d3 := b[0] as int, b[1] as int, b[2] as int, b[3] as int;
    DigitOfByte(b[0]); DigitOfByte(b[1]); DigitOfByte(b[2]); DigitOfByte(b[3]);
    PackDigits(d0, d1, d2, d3);
    assert Unpack32BE(b) == d0 * 0x100_0000 + d1 * 0x1_0000 + d2 * 0x100 + d3;
    assert [d0 as Byte, d1 as Byte, d2 as Byte, d3 as Byte] == b;
  }

  /** Distinct block counters below 2^32 give distinct seeds' suffixes. */
  lemma PackInjective(m: int, n: int)
    requires 0 <= m < Two32 && 0 <= n < Two32 && m != n
    ensures Pack32BE(m) != Pack32BE(n)
  {
    var p, q := Pack32BE(m), Pack32BE(n);
    SpellsCounter(m);
    SpellsCounter(n);
    DistinctSpelling(p, q);
  }

  /** A counter below 2^32 is spelled exactly by its packing. */
  lemma SpellsCounter(n: int)
    requires 0 <= n < Two32
    ensures Unpack32BE(Pack32BE(n)) == n
  {
    UnpackPack(n);
    SmallRemainder(n);
  }

  lemma SmallRemainder(n: int)
    requires 0 <= n < Two32
    ensures n % Two32 == n
  {
  }

  lemma DistinctSpelling(p: Bytes, q: Bytes)
    requires |p| == 4 && |q| == 4 && Unpack32BE(p) != Unpack32BE(q)
    ensures p != q
  {
  }
}

=== FILE: outcomes.dfy ===
/**
 * Failure-compatible results shared by every module of the model.
 *
 * The library raises `ArgumentError` (with a message naming the failed
 * check) or lets a lower layer raise; here each distinct message becomes
 * one constructor of `Error`, and a raising call returns `Err`.
 */
module Outcomes {

  datatype Option<+T> = None | Some(value: T) {
    function GetOr(default: T): T {
      match this
      case Some(v) => v
      case None => default
    }
  }

  datatype Error =
    // Cryptography::KDF::PBKDF2
    | SizeNotPositive          // "size must be positive"
    | CostNotPositive          // "cost must be positive"
    | UnrecognizedHmac         // "... is not a recognized HMAC"
    // Cryptography::Util::PBKDF2
    | UnknownPrimitive         // "unknown primitive ..."
    | IterationsNegative       // "iterations must be no less than zero"
    | LengthNotPositive        // "length must be greater than zero"
    | LengthNotMultiple        // "length must be a multiple of ..."
    | KeyLengthMismatch        // the NaCl binding: "key must be N bytes long"
    // Sodium::Buffer.key
    | NegativeLength
    // Cryptography::Serializable
    | FormatError              // the wire codec could not parse the bytes
    | UnregisteredEnumValue    // value_to_name has no entry for a decoded number
    | FieldTypeMismatch        // an attribute of the wrong kind for its field
    // Cryptography::Symmetric::Key
    | UnrecognizedContext
    | ContextMismatch
    | UnrecognizedPrimitive
    | PrimitiveMismatch
    | KeySizeNotPositive       // "key size must be positive"
    | MustBeUnlocked           // "key must be unlocked with a password"
    | MustBeLocked             // "key must be unlocked with a password first"
    | IncorrectPassword
    | ProtectedNotSerializable
    | MissingBuffer            // a method called on nil or on a non-buffer value
    | UndefinedMethod          // NoMethodError: a message the receiver does not define
    // Cryptography::Symmetric::AuthenticatedMessage
    | NotAuthenticatedMessage  // "can't use a ... as an authenticated message"
    | Tampered                 // "either the key or the authenticated message has been tampered with"

  datatype Result<+T> = Ok(value: T) | Err(error: Error) {
    predicate IsFailure() { Err? }

    function PropagateFailure<U>(): Result<U>
      requires Err?
    {
      Err(error)
    }

    function Extract(): T
      requires Ok?
    {
      value
    }
  }

  /** A check that either passes or fails with an error (a `_verify_*!` method). */
  datatype Outcome = Pass | Fail(error: Error) {
    predicate IsFailure() { Fail? }

    function PropagateFailure<U>(): Result<U>
      requires Fail?
    {
      Err(error)
    }
  }

  function Need(condition: bool, error: Error): (o: Outcome)
    ensures o.Pass? <==> condition
    ensures o.Fail? ==> o.error == error
  {
    if condition then Pass else Fail(error)
  }
}

=== FILE: serializable.dfy ===
/**
 * `Cryptography::Serializable`: the mapping between an entity's attribute
 * hash and the protocol-buffer message its schema describes.
 *
 * The wire format itself (`parse`, `serialize_to_string`) belongs to an
 * external gem and is a `Codec` parameter here. What is modelled is the
 * field-by-field conversion over the schema: `Decoded` and `Encoded` specify
 * it, the methods `FromProtocolBuffer` and `ToProtocolBuffer` run its loops,
 * and `RoundTrip` proves that decoding an encoding gives back the attributes
 * the schema covers.
 */
module Serializable {
  import opened Octets
  import opened Outcomes

  /** An attribute value: a symbol, a byte buffer, a boolean or an integer. */
  datatype Value = Sym(name: string) | Buffer(bytes: Bytes) | Flag(flag: bool) | Integer(number: int)

  /** An entity's `attributes` hash; Ruby symbols are their names. */
  type Attributes = map<string, Value>

  /** A value as the message carries it. */
  datatype WireValue = WireEnum(number: int) | WireBytes(bytes: Bytes) | WireBool(flag: bool) | WireInt(number: int)

  /** A parsed message: the fields it has, by name. */
  type Message = map<string, WireValue>

  /** A `ProtocolBuffers::Enum` module: its constants, name to number. */
  type EnumTable = seq<(string, int)>

  /** `Context` as the library defines it. */
  const SourceContextTable: EnumTable := [("UNKNOWN", 0), ("VAULT", 10)]

  /**
   * `Context` as the library's own entities need it: the authenticated
   * message context, numbered 10 as in the recorded key vectors.
   */
  const ContextTable: EnumTable := [("UNKNOWN", 0), ("AUTHENTICATED_MESSAGE", 10)]

  /** `Primitive`, with the numbers the library defines. */
  const PrimitiveTable: EnumTable :=
    [("UNKNOWN", 0), ("PBKDF2", 10), ("HKDF", 11), ("HMACSHA256", 100), ("HMACSHA512256", 101)]

  datatype FieldKind = EnumField(table: EnumTable) | BytesField | BoolField | Int64Field

  /** One `required`/`optional` declaration of a `serialize` block. */
  datatype Field = Field(name: string, kind: FieldKind, tag: nat)

  type Schema = seq<Field>

  /** No two fields of a schema share a name. */
  predicate UniqueNames(schema: Schema) {
    forall i, j :: 0 <= i < j < |schema| ==> schema[i].name != schema[j].name
  }

  /** The names a schema declares. */
  function Names(schema: Schema): (names: set<string>)
    ensures forall i :: 0 <= i < |schema| ==> schema[i].name in names
    ensures forall n :: n in names ==> exists i :: 0 <= i < |schema| && schema[i].name == n
  {
    set i | 0 <= i < |schema| :: schema[i].name
  }

  // ---------------------------------------------------------------- case

  function UpperChar(c: char): char {
    if 'a' <= c <= 'z' then (c as int - 32) as char else c
  }

  function LowerChar(c: char): char {
    if 'A' <= c <= 'Z' then (c as int + 32) as char else c
  }

  /** `String#upcase`, for ASCII. */
  function Upper(s: string): (u: string)
    ensures |u| == |s| && forall i :: 0 <= i < |s| ==> u[i] == UpperChar(s[i])
  {
    seq(|s|, i requires 0 <= i < |s| => UpperChar(s[i]))
  }

  /** `String#downcase`, for ASCII. */
  function Lower(s: string): (l: string)
    ensures |l| == |s| && forall i :: 0 <= i < |s| ==> l[i] == LowerChar(s[i])
  {
    seq(|s|, i requires 0 <= i < |s| => LowerChar(s[i]))
  }

  /** A symbol already in lower case comes back unchanged from upper-casing and lower-casing. */
  lemma LowerUpper(s: string)
    requires Lower(s) == s
    ensures Lower(Upper(s)) == s
  {
    forall i | 0 <= i < |s|
      ensures Lower(Upper(s))[i] == s[i]
    {
      assert LowerChar(s[i]) == s[i];
    }
  }

  // ---------------------------------------------------------------- enums

  /** `value_to_name.key(name)`: the number registered under `name`. */
  function ValueOf(table: EnumTable, name: string): (v: Option<int>)
    ensures v.Some? <==> exists i :: 0 <= i < |table| && table[i].0 == name
    ensures v.Some? ==> exists i :: 0 <= i < |table| && table[i] == (name, v.value)
  {
    if |table| == 0 then None
    else if table[0].0 == name then Some(table[0].1)
    else
      var v := ValueOf(table[1..], name);
      assert forall i :: 1 <= i < |table| ==> table[i] == table[1..][i - 1];
      v
  }

  /** `value_to_name[number]`: the name registered for `number`. */
  function NameOf(table: EnumTable, number: int): (n: Option<string>)
    ensures n.Some? <==> exists i :: 0 <= i < |table| && table[i].1 == number
    ensures n.Some? ==> exists i :: 0 <= i < |table| && table[i] == (n.value, number)
  {
    if |table| == 0 then None
    else if table[0].1 == number then Some(table[0].0)
    else
      var n := NameOf(table[1..], number);
      assert forall i :: 1 <= i < |table| ==> table[i] == table[1..][i - 1];
      n
  }

  /** No name and no number appears twice. */
  predicate Distinct(table: EnumTable) {
    forall i, j :: 0 <= i < j < |table| ==> table[i].0 != table[j].0 && table[i].1 != table[j].1
  }

  /** `Enum[symbol]`: the symbol, upper-cased, names a constant of the table. */
  predicate Registered(table: EnumTable, symbol: string) {
    ValueOf(table, Upper(symbol)).Some?
  }

  /** In a table without repeats, the number found for a name leads back to that name. */
  lemma NameOfValueOf(table: EnumTable, name: string)
    requires Distinct(table) && ValueOf(table, name).Some?
    ensures NameOf(table, ValueOf(table, name).value) == Some(name)
  {
    var v := ValueOf(table, name).value;
    var n := NameOf(table, v);
    var i :| 0 <= i < |table| && table[i] == (name, v);
    var j :| 0 <= j < |table| && table[j] == (n.value, v);
    assert i == j;
  }

  /** The three tables have no repeats. */
  lemma TablesDistinct()
    ensures Distinct(SourceContextTable) && Distinct(ContextTable) && Distinct(PrimitiveTable)
  {
  }

  /**
   * A registered lower-case symbol survives encoding and decoding: upper-case
   * it, look up its number, look up that number's name and lower-case it.
   */
  lemma EnumRoundTrip(table: EnumTable, symbol: string)
    requires Distinct(table) && Registered(table, symbol) && Lower(symbol) == symbol
    ensures NameOf(table, ValueOf(table, Upper(symbol)).value) == Some(Upper(symbol))
    ensures Lower(Upper(symbol)) == symbol
  {
    NameOfValueOf(table, Upper(symbol));
    LowerUpper(symbol);
  }

  // ---------------------------------------------------------------- fields

  /**
   * The per-field conversion of `from_protocol_buffer`: bytes are wrapped in
   * a buffer, an enum number becomes the lower-cased name it is registered
   * under, booleans and integers pass through. An unregistered number has
   * no name to lower-case and fails.
   */
  function DecodeField(kind: FieldKind, w: WireValue): (r: Result<Value>)
    ensures kind.BytesField? && w.WireBytes? ==> r == Ok(Buffer(w.bytes))
    ensures kind.EnumField? && w.WireEnum? ==>
              if NameOf(kind.table, w.number).Some? then r == Ok(Sym(Lower(NameOf(kind.table, w.number).value)))
              else r == Err(UnregisteredEnumValue)
    ensures r.Ok? ==> KindMatches(kind, r.value)
  {
    match (kind, w)
    case (EnumField(table), WireEnum(number)) =>
      if NameOf(table, number).None? then Err(UnregisteredEnumValue)
      else Ok(Sym(Lower(NameOf(table, number).value)))
    case (BytesField, WireBytes(b)) => Ok(Buffer(b))
    case (BoolField, WireBool(b)) => Ok(Flag(b))
    case (Int64Field, WireInt(i)) => Ok(Integer(i))
    case _ => Err(FieldTypeMismatch)
  }

  /**
   * The per-field conversion of `to_protocol_buffer`: a buffer gives its
   * bytes, a symbol is upper-cased and looked up, booleans and integers
   * pass through. An unregistered symbol looks up to nothing, which leaves
   * the field unset (`None`).
   */
  function EncodeField(kind: FieldKind, v: Value): (r: Result<Option<WireValue>>)
    ensures kind.BytesField? && v.Buffer? ==> r == Ok(Some(WireBytes(v.bytes)))
    ensures kind.EnumField? && v.Sym? ==>
              r.Ok? && (r.value.Some? <==> Registered(kind.table, v.name))
    ensures r.Ok? <==> KindMatches(kind, v)
  {
    match (kind, v)
    case (EnumField(table), Sym(s)) =>
      var number := ValueOf(table, Upper(s));
      if number.None? then Ok(None) else Ok(Some(WireEnum(number.value)))
    case (BytesField, Buffer(b)) => Ok(Some(WireBytes(b)))
    case (BoolField, Flag(b)) => Ok(Some(WireBool(b)))
    case (Int64Field, Integer(i)) => Ok(Some(WireInt(i)))
    case _ => Err(FieldTypeMismatch)
  }

  /** The value has the shape the field's kind carries. */
  predicate KindMatches(kind: FieldKind, v: Value) {
    match kind
    case EnumField(_) => v.Sym?
    case BytesField => v.Buffer?
    case BoolField => v.Flag?
    case Int64Field => v.Integer?
  }

  /** The value is one that decoding can produce: enum symbols are lower-cased registered names. */
  predicate Fits(kind: FieldKind, v: Value) {
    KindMatches(kind, v) && (kind.EnumField? ==> Registered(kind.table, v.name) && Lower(v.name) == v.name)
  }

  /** One field survives encoding then decoding unchanged. */
  lemma FieldRoundTrip(kind: FieldKind, v: Value)
    requires Fits(kind, v) && (kind.EnumField? ==> Distinct(kind.table))
    ensures EncodeField(kind, v).Ok? && EncodeField(kind, v).value.Some?
    ensures DecodeField(kind, EncodeField(kind, v).value.value) == Ok(v)
  {
    if kind.EnumField? {
      EnumRoundTrip(kind.table, v.name);
    }
  }

  // ---------------------------------------------------------------- folds

  /**
   * `from_protocol_buffer`'s fold over the schema's fields in order: a field
   * the message does not have is skipped, every other is converted and
   * stored under its name.
   */
  function Decoded(schema: Schema, msg: Message): (r: Result<Attributes>)
    ensures r.Ok? ==> r.value.Keys <= Names(schema)
  {
    if |schema| == 0 then Ok(map[])
    else
      var rest :- Decoded(schema[..|schema| - 1], msg);
      var f := schema[|schema| - 1];
      if f.name !in msg then Ok(rest)
      else
        var v :- DecodeField(f.kind, msg[f.name]);
        Ok(rest[f.name := v])
  }

  /**
   * `to_protocol_buffer`'s fold over the schema's fields in order: a field
   * the attributes do not have is skipped, every other is converted and
   * set when the conversion gives a value.
   */
  function Encoded(schema: Schema, attributes: Attributes): (r: Result<Message>)
    ensures r.Ok? ==> r.value.Keys <= Names(schema) * attributes.Keys
  {
    if |schema| == 0 then Ok(map[])
    else
      var rest :- Encoded(schema[..|schema| - 1], attributes);
      var f := schema[|schema| - 1];
      if f.name !in attributes then Ok(rest)
      else
        var w :- EncodeField(f.kind, attributes[f.name]);
        if w.None? then Ok(rest) else Ok(rest[f.name := w.value])
  }

  /**
   * Decoding succeeds exactly when every field the message has converts;
   * the result then holds exactly the schema fields the message has, each
   * converted on its own.
   */
  lemma {:induction false} DecodedFields(schema: Schema, msg: Message)
    requires UniqueNames(schema)
    ensures Decoded(schema, msg).Ok? <==>
              forall i :: 0 <= i < |schema| && schema[i].name in msg ==> DecodeField(schema[i].kind, msg[schema[i].name]).Ok?
    ensures Decoded(schema, msg).Ok? ==>
              forall i :: 0 <= i < |schema| ==>
                && (schema[i].name in Decoded(schema, msg).value <==> schema[i].name in msg)
                && (schema[i].name in msg ==>
                      Decoded(schema, msg).value[schema[i].name] == DecodeField(schema[i].kind, msg[schema[i].name]).value)
  {
    if |schema| > 0 {
      var prefix := schema[..|schema| - 1];
      assert forall i :: 0 <= i < |prefix| ==> prefix[i] == schema[i];
      DecodedFields(prefix, msg);
    }
  }

  /**
   * Encoding succeeds exactly when every schema field the attributes have
   * is of its field's kind.
   */
  lemma {:induction false} EncodedOk(schema: Schema, attributes: Attributes)
    ensures Encoded(schema, attributes).Ok? <==>
              forall i :: 0 <= i < |schema| && schema[i].name in attributes ==> KindMatches(schema[i].kind, attributes[schema[i].name])
  {
    if |schema| > 0 {
      var prefix := schema[..|schema| - 1];
      assert forall i :: 0 <= i < |prefix| ==> prefix[i] == schema[i];
      EncodedOk(prefix, attributes);
    }
  }

  /** What `to_protocol_buffer` sets for one field: nothing when the attribute is absent or looks up to nothing. */
  function Emitted(f: Field, attributes: Attributes): Option<WireValue> {
    if f.name !in attributes then None
    else
      match EncodeField(f.kind, attributes[f.name])
      case Ok(w) => w
      case Err(_) => None
  }

  /**
   * An encoded message has exactly the schema fields whose value converts
   * to something, each converted on its own. Nothing outside the schema,
   * such as `protected`, is ever emitted.
   */
  lemma {:induction false} EncodedFields(schema: Schema, attributes: Attributes)
    requires UniqueNames(schema) && Encoded(schema, attributes).Ok?
    ensures var msg := Encoded(schema, attributes).value;
            forall i :: 0 <= i < |schema| ==>
              && (schema[i].name in msg <==> Emitted(schema[i], attributes).Some?)
              && (schema[i].name in msg ==> msg[schema[i].name] == Emitted(schema[i], attributes).value)
  {
    if |schema| > 0 {
      var prefix := schema[..|schema| - 1];
      var f := schema[|schema| - 1];
      assert forall i :: 0 <= i < |prefix| ==> prefix[i] == schema[i];
      assert UniqueNames(prefix);
      EncodedFields(prefix, attributes);
      var rest := Encoded(prefix, attributes).value;
      assert f.name !in rest;
      var msg := Encoded(schema, attributes).value;
      assert msg == if Emitted(f, attributes).None? then rest else rest[f.name := Emitted(f, attributes).value];
      forall i | 0 <= i < |prefix|
        ensures schema[i].name in msg <==> Emitted(schema[i], attributes).Some?
        ensures schema[i].name in msg ==> msg[schema[i].name] == Emitted(schema[i], attributes).value
      {
        assert schema[i].name != f.name;
        assert schema[i] == prefix[i];
      }
    }
  }

  /** Every schema field the attributes have holds a value decoding could have produced. */
  predicate WellTyped(schema: Schema, attributes: Attributes) {
    forall i :: 0 <= i < |schema| && schema[i].name in attributes ==> Fits(schema[i].kind, attributes[schema[i].name])
  }

  /** Every enum field of the schema has a table without repeats. */
  predicate DistinctTables(schema: Schema) {
    forall i :: 0 <= i < |schema| && schema[i].kind.EnumField? ==> Distinct(schema[i].kind.table)
  }

  /**
   * Decoding the encoding of well-typed attributes gives back exactly the
   * attributes the schema covers; anything else the hash held is dropped.
   */
  lemma RoundTrip(schema: Schema, attributes: Attributes)
    requires UniqueNames(schema) && DistinctTables(schema) && WellTyped(schema, attributes)
    ensures Encoded(schema, attributes).Ok?
    ensures Decoded(schema, Encoded(schema, attributes).value)
         == Ok(map n | n in attributes && n in Names(schema) :: attributes[n])
  {
    RoundTripFields(schema, attributes);
    var msg := Encoded(schema, attributes).value;
    DecodedFields(schema, msg);
    SchemaShare(schema, Decoded(schema, msg).value, attributes);
  }

  /** Field by field, the encoding of well-typed attributes decodes back to them. */
  lemma RoundTripFields(schema: Schema, attributes: Attributes)
    requires UniqueNames(schema) && DistinctTables(schema) && WellTyped(schema, attributes)
    ensures Encoded(schema, attributes).Ok?
    ensures var msg := Encoded(schema, attributes).value;
            forall i :: 0 <= i < |schema| ==>
              && (schema[i].name in msg <==> schema[i].name in attributes)
              && (schema[i].name in msg ==> DecodeField(schema[i].kind, msg[schema[i].name]) == Ok(attributes[schema[i].name]))
  {
    EncodedOk(schema, attributes);
    EncodedFields(schema, attributes);
    forall i | 0 <= i < |schema| && schema[i].name in attributes
      ensures Emitted(schema[i], attributes).Some?
      ensures DecodeField(schema[i].kind, Emitted(schema[i], attributes).value) == Ok(attributes[schema[i].name])
    {
      FieldRoundTrip(schema[i].kind, attributes[schema[i].name]);
    }
  }

  /** A map over the schema's names that agrees with `attributes` on every field is their schema share. */
  lemma SchemaShare(schema: Schema, m: Attributes, attributes: Attributes)
    requires m.Keys <= Names(schema)
    requires forall i :: 0 <= i < |schema| ==>
               && (schema[i].name in m <==> schema[i].name in attributes)
               && (schema[i].name in m ==> m[schema[i].name] == attributes[schema[i].name])
    ensures m == map n | n in attributes && n in Names(schema) :: attributes[n]
  {
    var expected := map n | n in attributes && n in Names(schema) :: attributes[n];
    forall n | n in expected
      ensures n in m && m[n] == expected[n]
    {
      var i :| 0 <= i < |schema| && schema[i].name == n;
    }
    assert m.Keys == expected.Keys;
  }

  // ---------------------------------------------------------------- loops

  /** `from_protocol_buffer`: the fold, run as a loop that fills a hash. */
  method FromProtocolBuffer(schema: Schema, msg: Message) returns (r: Result<Attributes>)
    ensures r == Decoded(schema, msg)
  {
    var attributes: Attributes := map[];
    var i := 0;
    while i < |schema|
      invariant 0 <= i <= |schema|
      invariant Decoded(schema[..i], msg) == Ok(attributes)
    {
      var field := schema[i];
      assert schema[..i + 1][..i] == schema[..i];
      if field.name in msg {
        var value := DecodeField(field.kind, msg[field.name]);
        if value.Err? {
          assert schema[..i + 1] == schema[..i] + [field];
          DecodedFailsOnward(schema, msg, i + 1);
          return Err(value.error);
        }
        attributes := attributes[field.name := value.value];
      }
      i := i + 1;
    }
    assert schema[..i] == schema;
    r := Ok(attributes);
  }

  /** Once a prefix fails to decode, so does every longer prefix, with the same error. */
  lemma {:induction false} DecodedFailsOnward(schema: Schema, msg: Message, i: nat)
    requires i <= |schema| && Decoded(schema[..i], msg).Err?
    ensures Decoded(schema, msg) == Decoded(schema[..i], msg)
    decreases |schema| - i
  {
    if i < |schema| {
      assert schema[..i + 1][..i] == schema[..i];
      DecodedFailsOnward(schema, msg, i + 1);
    } else {
      assert schema[..i] == schema;
    }
  }

  /** Once a prefix fails to encode, so does every longer prefix, with the same error. */
  lemma {:induction false} EncodedFailsOnward(schema: Schema, attributes: Attributes, i: nat)
    requires i <= |schema| && Encoded(schema[..i], attributes).Err?
    ensures Encoded(schema, attributes) == Encoded(schema[..i], attributes)
    decreases |schema| - i
  {
    if i < |schema| {
      assert schema[..i + 1][..i] == schema[..i];
      EncodedFailsOnward(schema, attributes, i + 1);
    } else {
      assert schema[..i] == schema;
    }
  }

  /** `to_protocol_buffer`: the fold, run as a loop that fills a hash. */
  method ToProtocolBuffer(schema: Schema, attributes: Attributes) returns (r: Result<Message>)
    ensures r == Encoded(schema, attributes)
  {
    var hash: Message := map[];
    var i := 0;
    while i < |schema|
      invariant 0 <= i <= |schema|
      invariant Encoded(schema[..i], attributes) == Ok(hash)
    {
      var field := schema[i];
      assert schema[..i + 1][..i] == schema[..i];
      if field.name in attributes {
        var value := EncodeField(field.kind, attributes[field.name]);
        if value.Err? {
          EncodedFailsOnward(schema, attributes, i + 1);
          return Err(value.error);
        }
        if value.value.Some? {
          hash := hash[field.name := value.value.value];
        }
      }
      i := i + 1;
    }
    assert schema[..i] == schema;
    r := Ok(hash);
  }

  // ---------------------------------------------------------------- strings

  /** The external wire codec: `serialize_to_string` and `parse`. */
  datatype Codec = Codec(serialize: Message -> Bytes, parse: Bytes -> Option<Message>)

  /** `from_s`: parse the bytes, then decode the message. */
  function FromS(codec: Codec, schema: Schema, s: Bytes): (r: Result<Attributes>)
    ensures codec.parse(s).None? ==> r == Err(FormatError)
    ensures codec.parse(s).Some? ==> r == Decoded(schema, codec.parse(s).value)
  {
    match codec.parse(s)
    case None => Err(FormatError)
    case Some(msg) => Decoded(schema, msg)
  }

  /** What a class answers to `initialize!`: a check it defines, or nothing at all. */
  datatype Hook = Undefined | Defined(check: Attributes -> Outcome)

  /**
   * `deserialize(attributes)`: an object is allocated over the hash and sent
   * `initialize!`. A class that does not define it raises NoMethodError; one
   * that does keeps the hash exactly when its check passes.
   */
  function Deserialized(hook: Hook, a: Attributes): (r: Result<Attributes>)
    ensures hook.Undefined? ==> r == Err(UndefinedMethod)
    ensures hook.Defined? ==> (r.Ok? <==> hook.check(a).Pass?)
    ensures r.Ok? ==> r.value == a
    ensures hook.Defined? && r.Err? ==> hook.check(a) == Fail(r.error)
  {
    match hook
    case Undefined => Err(UndefinedMethod)
    case Defined(check) =>
      var o := check(a);
      if o.Fail? then Err(o.error) else Ok(a)
  }

  /** `to_s`: encode the attributes, then serialize the message. */
  function ToS(codec: Codec, schema: Schema, attributes: Attributes): (r: Result<Bytes>)
    ensures r.Ok? <==> Encoded(schema, attributes).Ok?
    ensures r.Ok? ==> r.value == codec.serialize(Encoded(schema, attributes).value)
  {
    var msg :- Encoded(schema, attributes);
    Ok(codec.serialize(msg))
  }

  /**
   * Over a codec that parses back what it serialized, `from_s` after `to_s`
   * gives back the schema's share of well-typed attributes.
   */
  lemma StringRoundTrip(codec: Codec, schema: Schema, attributes: Attributes)
    requires UniqueNames(schema) && DistinctTables(schema) && WellTyped(schema, attributes)
    requires Encoded(schema, attributes).Ok?
    requires codec.parse(codec.serialize(Encoded(schema, attributes).value)) == Some(Encoded(schema, attributes).value)
    ensures ToS(codec, schema, attributes).Ok?
    ensures FromS(codec, schema, ToS(codec, schema, attributes).value)
         == Ok(map n | n in attributes && n in Names(schema) :: attributes[n])
  {
    RoundTrip(schema, attributes);
  }
}

=== FILE: sodium.dfy ===
/**
 * The primitive library the core calls into: the registry of keyed-hash
 * (HMAC) implementations, the keyed hash itself, `sodium_memxor` and
 * `Sodium::Buffer.key`.
 *
 * The keyed hash is not modelled bit for bit: every operation that needs it
 * takes a `Mac`, an arbitrary function whose only known property is the
 * length of what it returns.
 */
module Sodium {
  import opened Octets
  import opened Outcomes

  /** The keyed-hash implementations registered under `Sodium::Auth` (and `Cryptography::NaCl::Auth`). */
  datatype Hmac = HmacSha256 | HmacSha512256 {
    /** `KEYBYTES` / `KEY_LEN`: the size of the key the hash is given. */
    function KeyBytes(): nat { 32 }

    /** `BYTES` / `HMAC_LEN`: the size of every output, the PBKDF2 block size. */
    function OutputBytes(): nat { 32 }

    /** The `PRIMITIVE` symbol the implementation is registered under. */
    function Primitive(): string {
      match this
      case HmacSha256 => "hmacsha256"
      case HmacSha512256 => "hmacsha512256"
    }
  }

  /** `Sodium::Auth.primitive`, the default keyed hash. */
  const DefaultPrimitive: string := "hmacsha512256"

  /** `Sodium::Auth.implementation(primitive)`: nil for a primitive nobody registered. */
  function Implementation(primitive: string): (h: Option<Hmac>)
    ensures h.Some? <==> primitive == "hmacsha256" || primitive == "hmacsha512256"
    ensures h.Some? ==> h.value.Primitive() == primitive
  {
    if primitive == HmacSha256.Primitive() then Some(HmacSha256)
    else if primitive == HmacSha512256.Primitive() then Some(HmacSha512256)
    else None
  }

  /**
   * `auth(implementation, data, key)`: the keyed hash of `data` under `key`.
   * Nothing is known of it except that its output has the implementation's
   * output size.
   */
  type Mac = f: (Hmac, Bytes, Bytes) -> Bytes | forall h, data, key :: |f(h, data, key)| == h.OutputBytes()
    witness (h: Hmac, data: Bytes, key: Bytes) => Zeros(h.OutputBytes())

  /** `implementation.nacl(out, data, len, key)`: the keyed hash of `data`, written into `out`. */
  method AuthInto(mac: Mac, h: Hmac, out: array<Byte>, data: Bytes, key: Bytes)
    requires out.Length == h.OutputBytes()
    modifies out
    ensures out[..] == mac(h, data, key)
  {
    var a := mac(h, data, key);
    forall k | 0 <= k < out.Length {
      out[k] := a[k];
    }
  }

  /** `sodium_memxor(dst, dst, src, len)`: xor `src` into `dst` in place. */
  method MemXor(dst: array<Byte>, src: array<Byte>)
    requires dst.Length == src.Length && dst != src
    modifies dst
    ensures dst[..] == Xor(old(dst[..]), src[..])
  {
    forall k | 0 <= k < dst.Length {
      dst[k] := dst[k] ^ src[k];
    }
  }

  /**
   * `Sodium::Buffer.key(size)`: `size` bytes from the secure random source,
   * supplied here as `random`. A negative size is refused.
   */
  function RandomKey(size: int, random: Bytes): (r: Result<Bytes>)
    requires size >= 0 ==> |random| == size
    ensures r.Ok? <==> size >= 0
    ensures r.Ok? ==> |r.value| == size
  {
    if size < 0 then Err(NegativeLength) else Ok(random)
  }
}

=== FILE: symmetric_key.dfy ===
/**
 * `Cryptography::Symmetric::Key`: random key bytes tagged with a context and
 * a primitive, optionally locked under a password.
 *
 * Locking keeps the random bytes as a salt and records how to derive the
 * real key from the password, with a signature to recognise the right
 * password. Unlocking re-derives the key and yields a new, `protected` key
 * holding it. The rules are functions over the attribute hash (`Validation`,
 * `Access`, `Locked`, `Unlocked`); the class `Key` holds the hash and runs
 * them in the order the constructor and `unlock` do.
 */
module SymmetricKey {
  import opened Octets
  import opened Outcomes
  import opened Sodium
  import opened Serializable
  import Kdf

  /** The `serialize` block: name, kind and tag of every field. */
  const KeySchema: Schema := [
    Field("context", EnumField(ContextTable), 0),
    Field("primitive", EnumField(PrimitiveTable), 1),
    Field("bytes", BytesField, 2),
    Field("locked", BoolField, 10),
    Field("kdf", EnumField(PrimitiveTable), 11),
    Field("kdf_primitive", EnumField(PrimitiveTable), 12),
    Field("kdf_cost", Int64Field, 13),
    Field("kdf_signature", BytesField, 14)
  ]

  lemma KeySchemaWellFormed()
    ensures UniqueNames(KeySchema) && DistinctTables(KeySchema)
    ensures "protected" !in Names(KeySchema)
  {
    TablesDistinct();
  }

  // ---------------------------------------------------------------- reading the hash

  /** Ruby truthiness of `attributes[name]`: present and not `false`. */
  predicate Truthy(a: Attributes, name: string) {
    name in a && a[name] != Flag(false)
  }

  predicate HasBuffer(a: Attributes, name: string) {
    name in a && a[name].Buffer?
  }

  /** `Enum[attributes[name]]` */
  predicate RegisteredAt(table: EnumTable, a: Attributes, name: string) {
    name in a && a[name].Sym? && Registered(table, a[name].name)
  }

  /** `attributes[name]` as an option value: a symbol, or nil. */
  function SymbolAt(a: Attributes, name: string): Option<string> {
    if name in a && a[name].Sym? then Some(a[name].name) else None
  }

  /** `attributes[name]` as an option value: an integer, or nil. */
  function IntegerAt(a: Attributes, name: string): Option<int> {
    if name in a && a[name].Integer? then Some(a[name].number) else None
  }

  // ---------------------------------------------------------------- verifiers

  /** `_verify_context!(context)` */
  function VerifyContext(contexts: EnumTable, a: Attributes, context: Option<string>): (o: Outcome)
    ensures o.Pass? <==> RegisteredAt(contexts, a, "context") && (context.Some? ==> a["context"] == Sym(context.value))
    ensures !RegisteredAt(contexts, a, "context") ==> o == Fail(UnrecognizedContext)
    ensures o.Fail? ==> o.error == UnrecognizedContext || o.error == ContextMismatch
  {
    if !RegisteredAt(contexts, a, "context") then Fail(UnrecognizedContext)
    else if context.Some? && a["context"] != Sym(context.value) then Fail(ContextMismatch)
    else Pass
  }

  /** `_verify_primitive!(primitive)` */
  function VerifyPrimitive(a: Attributes, primitive: Option<string>): (o: Outcome)
    ensures o.Pass? <==> RegisteredAt(PrimitiveTable, a, "primitive") && (primitive.Some? ==> a["primitive"] == Sym(primitive.value))
    ensures !RegisteredAt(PrimitiveTable, a, "primitive") ==> o == Fail(UnrecognizedPrimitive)
    ensures o.Fail? ==> o.error == UnrecognizedPrimitive || o.error == PrimitiveMismatch
  {
    if !RegisteredAt(PrimitiveTable, a, "primitive") then Fail(UnrecognizedPrimitive)
    else if primitive.Some? && a["primitive"] != Sym(primitive.value) then Fail(PrimitiveMismatch)
    else Pass
  }

  /** `_verify_size!` */
  function VerifySize(a: Attributes): (o: Outcome)
    ensures o.Pass? <==> HasBuffer(a, "bytes") && |a["bytes"].bytes| > 0
    ensures HasBuffer(a, "bytes") && |a["bytes"].bytes| == 0 ==> o == Fail(KeySizeNotPositive)
  {
    if !HasBuffer(a, "bytes") then Fail(MissingBuffer)
    else Need(|a["bytes"].bytes| > 0, KeySizeNotPositive)
  }

  /** `_verify_serializable!` */
  function VerifySerializable(a: Attributes): (o: Outcome)
    ensures o.Pass? <==> !Truthy(a, "protected")
    ensures o.Fail? ==> o.error == ProtectedNotSerializable
  {
    Need(!Truthy(a, "protected"), ProtectedNotSerializable)
  }

  /**
   * `on_initialize!`'s checks, given the context table they consult: the
   * context, then the primitive, then the size.
   */
  function ValidationWith(contexts: EnumTable, a: Attributes): (o: Outcome)
    ensures o.Pass? <==>
              RegisteredAt(contexts, a, "context") && RegisteredAt(PrimitiveTable, a, "primitive")
              && HasBuffer(a, "bytes") && |a["bytes"].bytes| > 0
    ensures !RegisteredAt(contexts, a, "context") ==> o == Fail(UnrecognizedContext)
    ensures RegisteredAt(contexts, a, "context") && !RegisteredAt(PrimitiveTable, a, "primitive") ==> o == Fail(UnrecognizedPrimitive)
  {
    var c := VerifyContext(contexts, a, None);
    if c.Fail? then c
    else
      var p := VerifyPrimitive(a, None);
      if p.Fail? then p else VerifySize(a)
  }

  function Validation(a: Attributes): Outcome {
    ValidationWith(ContextTable, a)
  }

  /**
   * `bytes(context, primitive)` against a context table: the key's own
   * context and primitive must be registered and match the requested ones
   * (a nil request skips its match), and the key must not be locked.
   */
  function AccessWith(contexts: EnumTable, a: Attributes, context: Option<string>, primitive: Option<string>): (r: Result<Bytes>)
    ensures r.Ok? <==>
              && RegisteredAt(contexts, a, "context") && (context.Some? ==> a["context"] == Sym(context.value))
              && RegisteredAt(PrimitiveTable, a, "primitive") && (primitive.Some? ==> a["primitive"] == Sym(primitive.value))
              && !Truthy(a, "locked") && HasBuffer(a, "bytes")
    ensures r.Ok? ==> r.value == a["bytes"].bytes
    ensures (RegisteredAt(contexts, a, "context") && RegisteredAt(PrimitiveTable, a, "primitive")
             && context.Some? && a["context"] != Sym(context.value)) ==> r == Err(ContextMismatch)
    ensures (RegisteredAt(contexts, a, "context") && (context.Some? ==> a["context"] == Sym(context.value))
             && RegisteredAt(PrimitiveTable, a, "primitive") && (primitive.Some? ==> a["primitive"] == Sym(primitive.value))
             && Truthy(a, "locked")) ==> r == Err(MustBeUnlocked)
  {
    var c := VerifyContext(contexts, a, context);
    if c.Fail? then Err(c.error)
    else
      var p := VerifyPrimitive(a, primitive);
      if p.Fail? then Err(p.error)
      else if Truthy(a, "locked") then Err(MustBeUnlocked)
      else if !HasBuffer(a, "bytes") then Err(MissingBuffer)
      else Ok(a["bytes"].bytes)
  }

  function Access(a: Attributes, context: Option<string>, primitive: Option<string>): Result<Bytes> {
    AccessWith(ContextTable, a, context, primitive)
  }

  // ---------------------------------------------------------------- lock and unlock

  /** `derive(P, derive(P, salt), :cost => 1)`: what `lock!` stores and `unlock` recomputes. */
  function Signature(kdf: Kdf.Pbkdf2, mac: Mac, password: Bytes, salt: Bytes): (s: Bytes)
    requires kdf.Valid()
    ensures |s| == kdf.size
  {
    Kdf.DerivedKey(kdf, mac, password, Kdf.DerivedKey(kdf, mac, password, salt, None), Some(1))
  }

  /** The fields `lock!` merges into the hash. */
  function LockRecord(kdf: Kdf.Pbkdf2, signature: Bytes): Attributes {
    map[
      "locked" := Flag(true),
      "kdf" := Sym("pbkdf2"),
      "kdf_primitive" := Sym(kdf.primitive),
      "kdf_cost" := Integer(kdf.cost),
      "kdf_signature" := Buffer(signature)
    ]
  }

  /**
   * `lock!(password)`: a deriver with the default primitive and the
   * calibrated cost, sized to the key bytes, which are kept as they are and
   * serve as the salt.
   */
  function Locked(a: Attributes, password: Bytes, mac: Mac, calibrated: Kdf.Calibration): (r: Result<Attributes>)
    ensures r.Ok? <==> HasBuffer(a, "bytes") && |a["bytes"].bytes| > 0 && calibrated(DefaultPrimitive) > 0
    ensures r.Ok? ==>
              var kdf := Kdf.Pbkdf2(|a["bytes"].bytes|, DefaultPrimitive, calibrated(DefaultPrimitive));
              && kdf.Valid()
              && r.value == a + LockRecord(kdf, Signature(kdf, mac, password, a["bytes"].bytes))
              && r.value["bytes"] == a["bytes"]
              && Truthy(r.value, "locked")
  {
    if !HasBuffer(a, "bytes") then Err(MissingBuffer)
    else
      var bytes := a["bytes"].bytes;
      var kdf :- Kdf.New(|bytes|, None, None, calibrated);
      Ok(a + LockRecord(kdf, Signature(kdf, mac, password, bytes)))
  }

  /** The context and primitive an unlocked key inherits. */
  function Carried(a: Attributes): (c: Attributes)
    ensures c.Keys == a.Keys * {"context", "primitive"}
    ensures forall n :: n in c ==> c[n] == a[n]
  {
    map n | n in a && (n == "context" || n == "primitive") :: a[n]
  }

  /** The deriver `unlock` rebuilds from the stored metadata. */
  function UnlockKdf(a: Attributes, calibrated: Kdf.Calibration): (r: Result<Kdf.Pbkdf2>)
    requires HasBuffer(a, "bytes")
    ensures var p := SymbolAt(a, "kdf_primitive").GetOr(DefaultPrimitive);
            var c := IntegerAt(a, "kdf_cost").GetOr(calibrated(p));
            && (r.Ok? <==> |a["bytes"].bytes| > 0 && c > 0 && Implementation(p).Some?)
            && (r.Ok? ==> r.value.Valid() && r.value == Kdf.Pbkdf2(|a["bytes"].bytes|, p, c))
  {
    Kdf.New(|a["bytes"].bytes|, SymbolAt(a, "kdf_primitive"), IntegerAt(a, "kdf_cost"), calibrated)
  }

  /**
   * `unlock(password)`: the key must be locked; the deriver is rebuilt from
   * the byte length, `kdf_primitive` and `kdf_cost`; the signature is
   * recomputed from the password and must equal `kdf_signature`. The result
   * is the hash of the new key: same context and primitive, the derived
   * bytes, and `protected`.
   */
  function Unlocked(a: Attributes, password: Bytes, mac: Mac, calibrated: Kdf.Calibration): (r: Result<Attributes>)
    ensures !Truthy(a, "locked") ==> r == Err(MustBeLocked)
    ensures r.Ok? <==>
              && Truthy(a, "locked") && HasBuffer(a, "bytes") && UnlockKdf(a, calibrated).Ok?
              && "kdf_signature" in a
              && a["kdf_signature"] == Buffer(Signature(UnlockKdf(a, calibrated).value, mac, password, a["bytes"].bytes))
    ensures r.Ok? ==>
              r.value == Carried(a) + map[
                "bytes" := Buffer(Kdf.DerivedKey(UnlockKdf(a, calibrated).value, mac, password, a["bytes"].bytes, None)),
                "protected" := Flag(true)]
  {
    if !Truthy(a, "locked") then Err(MustBeLocked)
    else if !HasBuffer(a, "bytes") then Err(MissingBuffer)
    else
      var kdf :- UnlockKdf(a, calibrated);
      var key := Kdf.DerivedKey(kdf, mac, password, a["bytes"].bytes, None);
      var signature := Kdf.DerivedKey(kdf, mac, password, key, Some(1));
      if !("kdf_signature" in a && a["kdf_signature"] == Buffer(signature)) then Err(IncorrectPassword)
      else Ok(Carried(a) + map["bytes" := Buffer(key), "protected" := Flag(true)])
  }

  /**
   * Unlocking with the password a key was locked with succeeds: `lock!`
   * stores exactly the primitive and cost `unlock` rebuilds the deriver
   * from, and derivation is deterministic. The new key holds the bytes
   * derived from the password with the original bytes as salt.
   */
  lemma UnlockWithLockingPassword(a: Attributes, password: Bytes, mac: Mac, calibrated: Kdf.Calibration)
    requires Locked(a, password, mac, calibrated).Ok?
    ensures var kdf := Kdf.Pbkdf2(|a["bytes"].bytes|, DefaultPrimitive, calibrated(DefaultPrimitive));
            && kdf.Valid()
            && Unlocked(Locked(a, password, mac, calibrated).value, password, mac, calibrated)
               == Ok(Carried(a) + map[
                    "bytes" := Buffer(Kdf.DerivedKey(kdf, mac, password, a["bytes"].bytes, None)),
                    "protected" := Flag(true)])
  {
    LockedRecord(a, password, mac, calibrated);
  }

  /** What `unlock` reads back from a hash `lock!` wrote: the same deriver, salt, signature and names. */
  lemma LockedRecord(a: Attributes, password: Bytes, mac: Mac, calibrated: Kdf.Calibration)
    requires Locked(a, password, mac, calibrated).Ok?
    ensures var locked := Locked(a, password, mac, calibrated).value;
            var kdf := Kdf.Pbkdf2(|a["bytes"].bytes|, DefaultPrimitive, calibrated(DefaultPrimitive));
            && Truthy(locked, "locked") && HasBuffer(locked, "bytes") && locked["bytes"] == a["bytes"]
            && UnlockKdf(locked, calibrated) == Ok(kdf)
            && "kdf_signature" in locked
            && locked["kdf_signature"] == Buffer(Signature(kdf, mac, password, a["bytes"].bytes))
            && Carried(locked) == Carried(a)
  {
    var locked := Locked(a, password, mac, calibrated).value;
    var kdf := Kdf.Pbkdf2(|a["bytes"].bytes|, DefaultPrimitive, calibrated(DefaultPrimitive));
    var record := LockRecord(kdf, Signature(kdf, mac, password, a["bytes"].bytes));
    assert locked == a + record;
    assert SymbolAt(locked, "kdf_primitive") == Some(DefaultPrimitive);
    assert IntegerAt(locked, "kdf_cost") == Some(calibrated(DefaultPrimitive));
    assert Carried(locked) == Carried(a);
  }

  /** Two hashes agree on the context, the primitive and the bytes. */
  predicate SameCore(a: Attributes, b: Attributes) {
    && ("context" in a <==> "context" in b) && ("context" in a ==> a["context"] == b["context"])
    && ("primitive" in a <==> "primitive" in b) && ("primitive" in a ==> a["primitive"] == b["primitive"])
    && ("bytes" in a <==> "bytes" in b) && ("bytes" in a ==> a["bytes"] == b["bytes"])
  }

  /** `on_initialize!` looks at nothing but the context, the primitive and the bytes. */
  lemma ValidationReadsCore(contexts: EnumTable, a: Attributes, b: Attributes)
    requires SameCore(a, b)
    ensures ValidationWith(contexts, a) == ValidationWith(contexts, b)
  {
    assert RegisteredAt(contexts, a, "context") == RegisteredAt(contexts, b, "context");
    assert RegisteredAt(PrimitiveTable, a, "primitive") == RegisteredAt(PrimitiveTable, b, "primitive");
    assert HasBuffer(a, "bytes") == HasBuffer(b, "bytes");
  }

  /** Locking changes none of what `on_initialize!` checks. */
  lemma LockKeepsValidation(a: Attributes, password: Bytes, mac: Mac, calibrated: Kdf.Calibration)
    requires Locked(a, password, mac, calibrated).Ok?
    ensures ValidationWith(ContextTable, Locked(a, password, mac, calibrated).value) == ValidationWith(ContextTable, a)
  {
    var kdf := Kdf.Pbkdf2(|a["bytes"].bytes|, DefaultPrimitive, calibrated(DefaultPrimitive));
    var record := LockRecord(kdf, Signature(kdf, mac, password, a["bytes"].bytes));
    assert record.Keys == {"locked", "kdf", "kdf_primitive", "kdf_cost", "kdf_signature"};
    assert SameCore(a, a + record);
    ValidationReadsCore(ContextTable, a, a + record);
  }

  /** A locked key refuses access to its bytes whatever context and primitive are asked for. */
  lemma LockedKeyHidesBytes(a: Attributes, password: Bytes, mac: Mac, calibrated: Kdf.Calibration, context: Option<string>, primitive: Option<string>)
    requires Locked(a, password, mac, calibrated).Ok?
    ensures Access(Locked(a, password, mac, calibrated).value, context, primitive).Err?
  {
  }

  /**
   * The key `unlock` yields from a valid locked key is itself valid, gives
   * access to the derived bytes under the original context and primitive,
   * and is `protected`.
   */
  lemma UnlockedKeyUsable(a: Attributes, password: Bytes, mac: Mac, calibrated: Kdf.Calibration)
    requires Validation(a).Pass? && Unlocked(a, password, mac, calibrated).Ok?
    ensures var u := Unlocked(a, password, mac, calibrated).value;
            && Validation(u).Pass?
            && Access(u, Some(a["context"].name), Some(a["primitive"].name)) == Ok(u["bytes"].bytes)
            && |u["bytes"].bytes| == |a["bytes"].bytes|
            && Truthy(u, "protected")
  {
    var kdf := UnlockKdf(a, calibrated).value;
    var key := Kdf.DerivedKey(kdf, mac, password, a["bytes"].bytes, None);
    assert |key| == |a["bytes"].bytes|;
    var u := Unlocked(a, password, mac, calibrated).value;
    assert u == Carried(a) + map["bytes" := Buffer(key), "protected" := Flag(true)];
    assert u["context"] == a["context"] && u["primitive"] == a["primitive"];
    assert "locked" !in u;
    assert Validation(u).Pass?;
  }

  /**
   * The `Context` table as written registers `vault` but not
   * `authenticated_message`, the context authenticated-message keys are
   * built with: such a key never passes `on_initialize!` and never hands
   * out its bytes. With the context registered, the same check accepts it.
   */
  lemma AuthenticatedMessageContextAsWritten(a: Attributes, primitive: Option<string>)
    requires "context" in a && a["context"] == Sym("authenticated_message")
    ensures ValidationWith(SourceContextTable, a) == Fail(UnrecognizedContext)
    ensures AccessWith(SourceContextTable, a, Some("authenticated_message"), primitive) == Err(UnrecognizedContext)
    ensures RegisteredAt(ContextTable, a, "context")
  {
    assert Upper("authenticated_message") == "AUTHENTICATED_MESSAGE";
    assert ContextTable[1].0 == "AUTHENTICATED_MESSAGE";
  }

  // ---------------------------------------------------------------- construction

  /**
   * The hash `initialize(context, primitive, size, password)` builds before
   * `on_initialize!`: random bytes of the requested size, then `lock!` when
   * a password is given.
   */
  function Generated(context: string, primitive: string, size: int, password: Option<Bytes>,
                     random: Bytes, mac: Mac, calibrated: Kdf.Calibration): (r: Result<Attributes>)
    requires size >= 0 ==> |random| == size
    ensures size < 0 ==> r == Err(NegativeLength)
    ensures password.None? ==> (r.Ok? <==> size >= 0)
    ensures password.Some? ==> (r.Ok? <==> size > 0 && calibrated(DefaultPrimitive) > 0)
    ensures r.Ok? ==>
              && {"context", "primitive", "bytes"} <= r.value.Keys
              && r.value["context"] == Sym(context) && r.value["primitive"] == Sym(primitive)
              && r.value["bytes"] == Buffer(random) && |random| == size
              && (Truthy(r.value, "locked") <==> password.Some?)
  {
    var bytes :- RandomKey(size, random);
    var base := Base(context, primitive, bytes);
    if password.None? then Ok(base) else Locked(base, password.value, mac, calibrated)
  }

  /** The hash `initialize` starts from. */
  function Base(context: string, primitive: string, bytes: Bytes): (a: Attributes)
    ensures a.Keys == {"context", "primitive", "bytes"}
    ensures a["context"] == Sym(context) && a["primitive"] == Sym(primitive) && a["bytes"] == Buffer(bytes)
  {
    map["context" := Sym(context), "primitive" := Sym(primitive), "bytes" := Buffer(bytes)]
  }

  /** `initialize` as a whole: the generated hash, if it passes `on_initialize!`. */
  function Constructed(context: string, primitive: string, size: int, password: Option<Bytes>,
                       random: Bytes, mac: Mac, calibrated: Kdf.Calibration): (r: Result<Attributes>)
    requires size >= 0 ==> |random| == size
    ensures r.Ok? ==> Validation(r.value).Pass?
    ensures r.Ok? <==> Generated(context, primitive, size, password, random, mac, calibrated).Ok?
                       && Validation(Generated(context, primitive, size, password, random, mac, calibrated).value).Pass?
    ensures r.Ok? ==> r == Generated(context, primitive, size, password, random, mac, calibrated)
  {
    var a :- Generated(context, primitive, size, password, random, mac, calibrated);
    var o := Validation(a);
    if o.Fail? then Err(o.error) else Ok(a)
  }

  /**
   * Construction without a password fails exactly for an unregistered
   * context, an unregistered primitive or a size that is not positive; a key
   * it does build is unlocked and hands out its `size` random bytes.
   */
  lemma NewWithoutPassword(context: string, primitive: string, size: int, random: Bytes, mac: Mac, calibrated: Kdf.Calibration)
    requires size >= 0 ==> |random| == size
    ensures Constructed(context, primitive, size, None, random, mac, calibrated).Ok? <==>
              Registered(ContextTable, context) && Registered(PrimitiveTable, primitive) && size > 0
    ensures Constructed(context, primitive, size, None, random, mac, calibrated).Ok? ==>
              var a := Constructed(context, primitive, size, None, random, mac, calibrated).value;
              && !Truthy(a, "locked")
              && Access(a, Some(context), Some(primitive)) == Ok(random)
              && |random| == size
  {
  }

  /**
   * Construction with a password, when the calibrated cost is positive,
   * fails for the same inputs; a key it builds hides its bytes until it is
   * unlocked, and unlocking it with that password succeeds.
   */
  lemma NewWithPassword(context: string, primitive: string, size: int, password: Bytes, random: Bytes, mac: Mac, calibrated: Kdf.Calibration)
    requires size >= 0 ==> |random| == size
    requires calibrated(DefaultPrimitive) > 0
    ensures Constructed(context, primitive, size, Some(password), random, mac, calibrated).Ok? <==>
              Registered(ContextTable, context) && Registered(PrimitiveTable, primitive) && size > 0
    ensures Constructed(context, primitive, size, Some(password), random, mac, calibrated).Ok? ==>
              var a := Constructed(context, primitive, size, Some(password), random, mac, calibrated).value;
              && Access(a, Some(context), Some(primitive)) == Err(MustBeUnlocked)
              && Unlocked(a, password, mac, calibrated).Ok?
              && Access(Unlocked(a, password, mac, calibrated).value, Some(context), Some(primitive)).Ok?
  {
    if size >= 0 {
      var base := Base(context, primitive, random);
      assert Generated(context, primitive, size, Some(password), random, mac, calibrated) == Locked(base, password, mac, calibrated);
      if size > 0 {
        LockKeepsValidation(base, password, mac, calibrated);
        if Registered(ContextTable, context) && Registered(PrimitiveTable, primitive) {
          LockedBase(context, primitive, password, random, mac, calibrated);
        }
      }
    }
  }

  /** A registered, non-empty key locked with a password hides its bytes until that password unlocks it. */
  lemma LockedBase(context: string, primitive: string, password: Bytes, random: Bytes, mac: Mac, calibrated: Kdf.Calibration)
    requires |random| > 0 && calibrated(DefaultPrimitive) > 0
    requires Registered(ContextTable, context) && Registered(PrimitiveTable, primitive)
    ensures Locked(Base(context, primitive, random), password, mac, calibrated).Ok?
    ensures var locked := Locked(Base(context, primitive, random), password, mac, calibrated).value;
            && Validation(locked).Pass?
            && Access(locked, Some(context), Some(primitive)) == Err(MustBeUnlocked)
            && Unlocked(locked, password, mac, calibrated).Ok?
            && Access(Unlocked(locked, password, mac, calibrated).value, Some(context), Some(primitive)).Ok?
  {
    var base := Base(context, primitive, random);
    LockedBaseHides(context, primitive, password, random, mac, calibrated);
    var locked := Locked(base, password, mac, calibrated).value;
    UnlockWithLockingPassword(base, password, mac, calibrated);
    UnlockedKeyUsable(locked, password, mac, calibrated);
  }

  /** The locked half of `LockedBase`: the key validates and refuses `bytes`. */
  lemma LockedBaseHides(context: string, primitive: string, password: Bytes, random: Bytes, mac: Mac, calibrated: Kdf.Calibration)
    requires |random| > 0 && calibrated(DefaultPrimitive) > 0
    requires Registered(ContextTable, context) && Registered(PrimitiveTable, primitive)
    ensures Locked(Base(context, primitive, random), password, mac, calibrated).Ok?
    ensures var locked := Locked(Base(context, primitive, random), password, mac, calibrated).value;
            && Validation(locked).Pass?
            && Access(locked, Some(context), Some(primitive)) == Err(MustBeUnlocked)
  {
    var base := Base(context, primitive, random);
    assert Validation(base).Pass? by {
      assert RegisteredAt(ContextTable, base, "context") && RegisteredAt(PrimitiveTable, base, "primitive");
    }
    LockKeepsValidation(base, password, mac, calibrated);
    LockedKeepsNames(base, password, mac, calibrated);
  }

  /** Locking keeps the context and the primitive, and sets `locked`. */
  lemma LockedKeepsNames(a: Attributes, password: Bytes, mac: Mac, calibrated: Kdf.Calibration)
    requires Locked(a, password, mac, calibrated).Ok?
    ensures var locked := Locked(a, password, mac, calibrated).value;
            && ("context" in a ==> "context" in locked && locked["context"] == a["context"])
            && ("primitive" in a ==> "primitive" in locked && locked["primitive"] == a["primitive"])
            && Truthy(locked, "locked")
  {
    var kdf := Kdf.Pbkdf2(|a["bytes"].bytes|, DefaultPrimitive, calibrated(DefaultPrimitive));
    var record := LockRecord(kdf, Signature(kdf, mac, password, a["bytes"].bytes));
    assert "context" !in record && "primitive" !in record;
  }

  // ---------------------------------------------------------------- serialization

  /** `to_s` as written: the hash is encoded without running `on_serialize!`. */
  function SerializedAsWritten(codec: Codec, a: Attributes): (r: Result<Bytes>)
    ensures r.Ok? <==> Encoded(KeySchema, a).Ok?
    ensures r.Ok? ==> r.value == codec.serialize(Encoded(KeySchema, a).value)
  {
    Serializable.ToS(codec, KeySchema, a)
  }

  /** `to_s` with `on_serialize!` run first: a protected key is refused. */
  function Serialized(codec: Codec, a: Attributes): (r: Result<Bytes>)
    ensures Truthy(a, "protected") ==> r == Err(ProtectedNotSerializable)
    ensures !Truthy(a, "protected") ==> r == SerializedAsWritten(codec, a)
  {
    var o := VerifySerializable(a);
    if o.Fail? then Err(o.error) else SerializedAsWritten(codec, a)
  }

  /**
   * As written, the key `unlock` yields serializes: its message carries the
   * password-derived bytes and drops the `protected` flag, so the string
   * parses back as an ordinary, unprotected key. With the hook run it is
   * refused.
   */
  lemma ProtectedKeySerializesAsWritten(a: Attributes, password: Bytes, mac: Mac, calibrated: Kdf.Calibration, codec: Codec)
    requires Validation(a).Pass? && Unlocked(a, password, mac, calibrated).Ok?
    ensures var u := Unlocked(a, password, mac, calibrated).value;
            && SerializedAsWritten(codec, u).Ok?
            && Encoded(KeySchema, u).Ok? && "bytes" in Encoded(KeySchema, u).value
            && Encoded(KeySchema, u).value["bytes"] == WireBytes(u["bytes"].bytes)
            && "protected" !in Encoded(KeySchema, u).value
            && Serialized(codec, u) == Err(ProtectedNotSerializable)
  {
    var u := Unlocked(a, password, mac, calibrated).value;
    assert u.Keys == {"context", "primitive", "bytes", "protected"};
    assert u["context"] == a["context"] && u["primitive"] == a["primitive"] && u["bytes"].Buffer?;
    EncodesBytes(u);
  }

  /** A hash holding a context, a primitive and key bytes encodes, bytes included, and `protected` never does. */
  lemma EncodesBytes(u: Attributes)
    requires "context" in u && u["context"].Sym? && "primitive" in u && u["primitive"].Sym?
    requires u.Keys <= {"context", "primitive", "bytes", "protected"} && HasBuffer(u, "bytes")
    ensures Encoded(KeySchema, u).Ok?
    ensures "bytes" in Encoded(KeySchema, u).value
    ensures Encoded(KeySchema, u).value["bytes"] == WireBytes(u["bytes"].bytes)
    ensures "protected" !in Encoded(KeySchema, u).value
  {
    KeySchemaWellFormed();
    EncodedOk(KeySchema, u);
    forall i | 0 <= i < |KeySchema| && KeySchema[i].name in u
      ensures KindMatches(KeySchema[i].kind, u[KeySchema[i].name])
    {
    }
    EncodedFields(KeySchema, u);
    assert KeySchema[2].name == "bytes";
    assert Emitted(KeySchema[2], u) == Some(WireBytes(u["bytes"].bytes));
  }

  /**
   * A valid, well-typed key that is not protected survives `to_s` then
   * `from_s` (over a codec that parses back what it wrote): the schema's
   * fields come back unchanged and pass `on_initialize!` again.
   */
  lemma KeyRoundTrip(codec: Codec, a: Attributes)
    requires Validation(a).Pass? && WellTyped(KeySchema, a) && !Truthy(a, "protected")
    requires Encoded(KeySchema, a).Ok?
    requires codec.parse(codec.serialize(Encoded(KeySchema, a).value)) == Some(Encoded(KeySchema, a).value)
    ensures Serialized(codec, a).Ok?
    ensures Serializable.FromS(codec, KeySchema, Serialized(codec, a).value)
         == Ok(map n | n in a && n in Names(KeySchema) :: a[n])
    ensures Validation(map n | n in a && n in Names(KeySchema) :: a[n]).Pass?
  {
    KeySchemaWellFormed();
    StringRoundTrip(codec, KeySchema, a);
    assert KeySchema[0].name == "context" && KeySchema[1].name == "primitive" && KeySchema[2].name == "bytes";
    var share := map n | n in a && n in Names(KeySchema) :: a[n];
    assert SameCore(a, share);
    ValidationReadsCore(ContextTable, a, share);
  }

  /**
   * `from_s` as written: the decoded hash goes to `deserialize`, which sends
   * `initialize!`; `Symmetric::Key` defines only `on_initialize!`, so every
   * string that decodes ends in NoMethodError.
   */
  function FromSAsWritten(codec: Codec, s: Bytes): (r: Result<Attributes>)
    ensures Serializable.FromS(codec, KeySchema, s).Ok? ==> r == Err(UndefinedMethod)
    ensures Serializable.FromS(codec, KeySchema, s).Err? ==> r == Serializable.FromS(codec, KeySchema, s)
  {
    var a :- Serializable.FromS(codec, KeySchema, s);
    Serializable.Deserialized(Undefined, a)
  }

  /**
   * `unlock` as written: a correct password reaches `from_hash`, that is
   * `deserialize`, and fails the same way; only its errors get through.
   */
  function UnlockAsWritten(a: Attributes, password: Bytes, mac: Mac, calibrated: Kdf.Calibration): (r: Result<Attributes>)
    ensures r.Err?
    ensures Unlocked(a, password, mac, calibrated).Ok? ==> r == Err(UndefinedMethod)
    ensures Unlocked(a, password, mac, calibrated).Err? ==> r == Unlocked(a, password, mac, calibrated)
  {
    var u :- Unlocked(a, password, mac, calibrated);
    Serializable.Deserialized(Undefined, u)
  }

  /**
   * As written, the round trip of a valid key fails: the string it
   * serializes to decodes, and the decoded hash is refused by `deserialize`.
   * With `on_initialize!` as the hook the same hash is accepted.
   */
  lemma RoundTripFailsAsWritten(codec: Codec, a: Attributes)
    requires Validation(a).Pass? && WellTyped(KeySchema, a) && !Truthy(a, "protected")
    requires Encoded(KeySchema, a).Ok?
    requires codec.parse(codec.serialize(Encoded(KeySchema, a).value)) == Some(Encoded(KeySchema, a).value)
    ensures Serialized(codec, a).Ok?
    ensures FromSAsWritten(codec, Serialized(codec, a).value) == Err(UndefinedMethod)
    ensures Serializable.FromS(codec, KeySchema, Serialized(codec, a).value).Ok?
    ensures Serializable.Deserialized(Defined(Validation), Serializable.FromS(codec, KeySchema, Serialized(codec, a).value).value).Ok?
  {
    KeyRoundTrip(codec, a);
  }

  // ---------------------------------------------------------------- the object

  class Key {
    var attributes: Attributes
    var frozen: bool

    /** A constructed key: frozen, and its hash passes `on_initialize!`. */
    ghost predicate Valid()
      reads this
    {
      frozen && Validation(attributes).Pass?
    }

    /** `allocate` followed by `attributes=`. */
    constructor Allocate(a: Attributes)
      ensures attributes == a && !frozen
    {
      attributes := a;
      frozen := false;
    }

    /** `on_initialize!`: the three verifiers, then `freeze`. */
    method OnInitialize() returns (o: Outcome)
      modifies this
      ensures attributes == old(attributes)
      ensures o == Validation(attributes)
      ensures frozen == (old(frozen) || o.Pass?)
    {
      var c := VerifyContext(ContextTable, attributes, None);
      if c.Fail? {
        return c;
      }
      var p := VerifyPrimitive(attributes, None);
      if p.Fail? {
        return p;
      }
      o := VerifySize(attributes);
      if o.Pass? {
        frozen := true;
      }
    }

    /** `lock!(password)`: derive the signature and merge the record into the hash. */
    method Lock(password: Bytes, mac: Mac, calibrated: Kdf.Calibration) returns (o: Outcome)
      requires !frozen
      modifies this
      ensures !frozen
      ensures Locked(old(attributes), password, mac, calibrated).Ok? ==>
                o == Pass && attributes == Locked(old(attributes), password, mac, calibrated).value
      ensures Locked(old(attributes), password, mac, calibrated).Err? ==>
                o == Fail(Locked(old(attributes), password, mac, calibrated).error) && attributes == old(attributes)
    {
      if !HasBuffer(attributes, "bytes") {
        return Fail(MissingBuffer);
      }
      var bytes := attributes["bytes"].bytes;
      var kdf := Kdf.New(|bytes|, None, None, calibrated);
      if kdf.Err? {
        return Fail(kdf.error);
      }
      var key := Kdf.Derive(kdf.value, mac, password, bytes, None);
      var signature := Kdf.Derive(kdf.value, mac, password, key, Some(1));
      attributes := attributes + LockRecord(kdf.value, signature);
      o := Pass;
    }

    /**
     * `initialize(context, primitive, size, password)`; `random` stands for
     * the bytes `Sodium::Buffer.key(size)` draws.
     */
    static method New(context: string, primitive: string, size: int, password: Option<Bytes>,
                      random: Bytes, mac: Mac, calibrated: Kdf.Calibration) returns (r: Result<Key>)
      requires size >= 0 ==> |random| == size
      ensures r.Ok? <==> Constructed(context, primitive, size, password, random, mac, calibrated).Ok?
      ensures r.Ok? ==> fresh(r.value) && r.value.Valid()
                        && r.value.attributes == Constructed(context, primitive, size, password, random, mac, calibrated).value
      ensures r.Err? ==> Constructed(context, primitive, size, password, random, mac, calibrated) == Err(r.error)
    {
      var bytes := RandomKey(size, random);
      if bytes.Err? {
        return Err(bytes.error);
      }
      var key := new Key.Allocate(Base(context, primitive, bytes.value));
      if password.Some? {
        var locked := key.Lock(password.value, mac, calibrated);
        if locked.Fail? {
          return Err(locked.error);
        }
      }
      var o := key.OnInitialize();
      if o.Fail? {
        return Err(o.error);
      }
      r := Ok(key);
    }

    /** `bytes(context, primitive)` */
    function Bytes(context: Option<string>, primitive: Option<string>): (r: Result<Bytes>)
      reads this
      ensures r.Ok? ==> !Truthy(attributes, "locked") && HasBuffer(attributes, "bytes")
                        && r.value == attributes["bytes"].bytes
      ensures (Truthy(attributes, "locked") && VerifyContext(ContextTable, attributes, context).Pass?
               && VerifyPrimitive(attributes, primitive).Pass?) ==> r == Err(MustBeUnlocked)
      ensures Valid() && !Truthy(attributes, "locked") && context.None? && primitive.None? ==> r.Ok?
    {
      Access(attributes, context, primitive)
    }

    /** `on_serialize!` */
    function OnSerialize(): (o: Outcome)
      reads this
      ensures o.Pass? <==> !Truthy(attributes, "protected")
    {
      VerifySerializable(attributes)
    }

    /** `to_s`, with `on_serialize!` run first. */
    function ToS(codec: Codec): (r: Result<Bytes>)
      reads this
      ensures Truthy(attributes, "protected") ==> r == Err(ProtectedNotSerializable)
      ensures r.Ok? <==> !Truthy(attributes, "protected") && Encoded(KeySchema, attributes).Ok?
      ensures r.Ok? ==> r.value == codec.serialize(Encoded(KeySchema, attributes).value)
    {
      Serialized(codec, attributes)
    }

    /** `deserialize(attributes)`: a fresh object holding the hash, then the initialisation hook. */
    static method Deserialize(a: Attributes) returns (r: Result<Key>)
      ensures r.Ok? <==> Serializable.Deserialized(Defined(Validation), a).Ok?
      ensures r.Ok? <==> Validation(a).Pass?
      ensures r.Ok? ==> fresh(r.value) && r.value.attributes == a && r.value.Valid()
      ensures r.Err? ==> Validation(a) == Fail(r.error)
    {
      var key := new Key.Allocate(a);
      var o := key.OnInitialize();
      if o.Fail? {
        return Err(o.error);
      }
      r := Ok(key);
    }

    /** `from_s(string)` */
    static method FromS(codec: Codec, s: Bytes) returns (r: Result<Key>)
      ensures r.Ok? <==> Serializable.FromS(codec, KeySchema, s).Ok? && Validation(Serializable.FromS(codec, KeySchema, s).value).Pass?
      ensures r.Ok? ==> fresh(r.value) && r.value.attributes == Serializable.FromS(codec, KeySchema, s).value && r.value.Valid()
    {
      var parsed := codec.parse(s);
      if parsed.None? {
        return Err(FormatError);
      }
      var a := FromProtocolBuffer(KeySchema, parsed.value);
      if a.Err? {
        return Err(a.error);
      }
      r := Deserialize(a.value);
    }

    /** `unlock(password)`: this key is left as it is; the unlocked key is a new object. */
    method Unlock(password: Bytes, mac: Mac, calibrated: Kdf.Calibration) returns (r: Result<Key>)
      ensures r.Ok? <==> Unlocked(attributes, password, mac, calibrated).Ok?
                         && Validation(Unlocked(attributes, password, mac, calibrated).value).Pass?
      ensures r.Ok? ==> fresh(r.value) && r.value.Valid()
                        && r.value.attributes == Unlocked(attributes, password, mac, calibrated).value
    {
      if !Truthy(attributes, "locked") {
        return Err(MustBeLocked);
      }
      if !HasBuffer(attributes, "bytes") {
        return Err(MissingBuffer);
      }
      var kdf := UnlockKdf(attributes, calibrated);
      if kdf.Err? {
        return Err(kdf.error);
      }
      var key := Kdf.Derive(kdf.value, mac, password, attributes["bytes"].bytes, None);
      var signature := Kdf.Derive(kdf.value, mac, password, key, Some(1));
      if !("kdf_signature" in attributes && attributes["kdf_signature"] == Buffer(signature)) {
        return Err(IncorrectPassword);
      }
      r := Deserialize(Carried(attributes) + map["bytes" := Buffer(key), "protected" := Flag(true)]);
    }
  }
}

=== FILE: util_pbkdf2.dfy ===
/**
 * `Cryptography::Util::PBKDF2`: the older PBKDF2 engine over the library's
 * own NaCl binding. It folds over whole blocks, so the requested length must
 * be a multiple of the hash size, and it accepts zero iterations.
 *
 * The blocks are specified by `Folded` and `KeyOf`; the methods `Key`,
 * `XorChainedHmac` and `XorBytes` follow the folds of the code and are
 * proved to compute them. `AgreesWithKdf` relates the result to
 * `Kdf.DerivedKey`.
 */
module UtilPbkdf2 {
  import opened Octets
  import opened Outcomes
  import opened Sodium
  import Kdf

  /** `ITERATIONS`, the default iteration count. */
  const DefaultIterations: int := 1000

  datatype Pbkdf2 = Pbkdf2(primitive: string, iterations: int, length: int) {
    /** What the constructor's three verifiers establish. */
    predicate Valid() {
      && Implementation(primitive).Some?
      && iterations >= 0
      && length > 0
      && length % Implementation(primitive).value.OutputBytes() == 0
    }

    /** `implementation`: the first of `IMPLEMENTATIONS` registered under `primitive`. */
    function Hmac(): Hmac
      requires Valid()
    {
      Implementation(primitive).value
    }

    /** `blocks`: the derived key is made of this many whole blocks. */
    function BlockCount(): (n: nat)
      requires Valid()
      ensures n >= 1 && n * Hmac().OutputBytes() == length
    {
      length / Hmac().OutputBytes()
    }
  }

  /**
   * `PBKDF2.new(length, :primitive => p, :iterations => i)`: the primitive
   * defaults to the last implementation's, the iterations to
   * `DefaultIterations`; the primitive, the iterations and the length are
   * checked in that order.
   */
  function New(length: int, primitive: Option<string>, iterations: Option<int>): (r: Result<Pbkdf2>)
    ensures var p := primitive.GetOr(HmacSha512256.Primitive());
            var i := iterations.GetOr(DefaultIterations);
            && (r.Ok? <==> Pbkdf2(p, i, length).Valid())
            && (r.Ok? ==> r.value == Pbkdf2(p, i, length))
            && (Implementation(p).None? ==> r == Err(UnknownPrimitive))
            && (Implementation(p).Some? && i < 0 ==> r == Err(IterationsNegative))
            && (Implementation(p).Some? && i >= 0 && length <= 0 ==> r == Err(LengthNotPositive))
            && (Implementation(p).Some? && i >= 0 && length > 0 && length % 32 != 0 ==> r == Err(LengthNotMultiple))
  {
    var p := primitive.GetOr(HmacSha512256.Primitive());
    var i := iterations.GetOr(DefaultIterations);
    if Implementation(p).None? then Err(UnknownPrimitive)
    else if i < 0 then Err(IterationsNegative)
    else if length <= 0 then Err(LengthNotPositive)
    else if length % Implementation(p).value.OutputBytes() != 0 then Err(LengthNotMultiple)
    else Ok(Pbkdf2(p, i, length))
  }

  /**
   * `Cryptography::NaCl::Auth::<HMAC>.auth(message, key)`: the binding
   * refuses a key that is not exactly `KEY_LEN` bytes long.
   */
  function Auth(mac: Mac, h: Hmac, message: Bytes, key: Bytes): (r: Result<Bytes>)
    ensures r.Ok? <==> |key| == h.KeyBytes()
    ensures r.Ok? ==> r.value == mac(h, message, key) && |r.value| == h.OutputBytes()
  {
    if |key| != h.KeyBytes() then Err(KeyLengthMismatch) else Ok(mac(h, message, key))
  }

  /** `_xor_chained_hmac` for `n` chained values: U_1, then each further U xored in. */
  function Folded(mac: Mac, h: Hmac, key: Bytes, seed: Bytes, n: nat): (x: Bytes)
    requires n >= 1
    ensures |x| == h.OutputBytes()
  {
    if n == 1 then Kdf.Chain(mac, h, key, seed, 1)
    else Xor(Folded(mac, h, key, seed, n - 1), Kdf.Chain(mac, h, key, seed, n))
  }

  /** The seed of 1-based block `i`: the salt followed by `[i].pack('l>')`. */
  function Seed(salt: Bytes, i: int): (s: Bytes)
    ensures |s| == |salt| + 4 && s[..|salt|] == salt
  {
    salt + Pack32BE(i)
  }

  /** Blocks 1 to `n`, concatenated. */
  function UtilBlocks(mac: Mac, h: Hmac, key: Bytes, salt: Bytes, iterations: int, n: nat): (s: Bytes)
    ensures |s| == n * h.OutputBytes()
  {
    if n == 0 then []
    else UtilBlocks(mac, h, key, salt, iterations, n - 1)
         + Folded(mac, h, key, Seed(salt, n), Kdf.Rounds(iterations))
  }

  /** A character of a Ruby string: its bytes in the string's encoding, at least one of them. */
  type Character = c: Bytes | |c| >= 1 witness [0]

  /** A Ruby string, character by character. */
  type Text = seq<Character>

  /** Every character is a single byte, as in a binary or an ASCII string. */
  predicate SingleByte(t: Text) {
    forall k :: 0 <= k < |t| ==> |t[k]| == 1
  }

  /** The bytes of a string, which is what the binding reads. */
  function BytesOf(t: Text): (b: Bytes)
    ensures |b| >= |t|
  {
    if |t| == 0 then [] else BytesOf(t[..|t| - 1]) + t[|t| - 1]
  }

  /** `String#ljust(n, "\0")`: NUL characters are added until the string is `n` characters long. */
  function LjustText(t: Text, n: int): (r: Text)
    ensures |r| == if |t| < n then n else |t|
    ensures r[..|t|] == t
    ensures forall k :: |t| <= k < |r| ==> r[k] == [0]
  {
    if |t| < n then t + seq(n - |t|, _ => [0 as Byte]) else t
  }

  /**
   * `key(password, salt)`: the password is padded to `KEY_LEN` characters
   * before every block, and the binding then insists on exactly `KEY_LEN`
   * bytes. Only a password of at most `KEY_LEN` single-byte characters
   * gets through; one with a multibyte character is padded past `KEY_LEN`
   * bytes, or already is past it, and is refused.
   */
  function KeyOf(kdf: Pbkdf2, mac: Mac, password: Text, salt: Bytes): (r: Result<Bytes>)
    requires kdf.Valid()
    ensures r.Ok? <==> |password| <= kdf.Hmac().KeyBytes() && SingleByte(password)
    ensures r.Err? ==> r.error == KeyLengthMismatch
    ensures r.Ok? ==> |r.value| == kdf.length
  {
    var h := kdf.Hmac();
    var key := BytesOf(LjustText(password, h.KeyBytes()));
    PaddedKeyLength(password, h.KeyBytes());
    if |key| != h.KeyBytes() then Err(KeyLengthMismatch)
    else Ok(UtilBlocks(mac, h, key, salt, kdf.iterations, kdf.BlockCount()))
  }

  /** A string has as many bytes as characters exactly when every character is a single byte. */
  lemma {:induction false} BytesOfLength(t: Text)
    ensures |BytesOf(t)| == |t| <==> SingleByte(t)
  {
    if |t| > 0 {
      var init := t[..|t| - 1];
      BytesOfLength(init);
      if SingleByte(t) {
        assert SingleByte(init) by {
          forall k | 0 <= k < |init| ensures |init[k]| == 1 {
            assert init[k] == t[k];
          }
        }
      }
    }
  }

  lemma {:induction false} BytesOfAppend(a: Text, b: Text)
    ensures BytesOf(a + b) == BytesOf(a) + BytesOf(b)
  {
    if |b| > 0 {
      assert (a + b)[..|a + b| - 1] == a + b[..|b| - 1];
      BytesOfAppend(a, b[..|b| - 1]);
    } else {
      assert a + b == a;
    }
  }

  lemma {:induction false} BytesOfNuls(m: nat)
    ensures BytesOf(seq(m, _ => [0 as Byte])) == Zeros(m)
  {
    if m > 0 {
      var t: Text := seq(m, _ => [0 as Byte]);
      assert t[..m - 1] == seq(m - 1, _ => [0 as Byte]);
      BytesOfNuls(m - 1);
    }
  }

  /**
   * The padded password has exactly `n` bytes precisely when it has at most
   * `n` characters, all single bytes; its bytes are then the password's
   * bytes zero-padded to `n`.
   */
  lemma PaddedKeyLength(t: Text, n: nat)
    ensures |BytesOf(LjustText(t, n))| == n <==> |t| <= n && SingleByte(t)
    ensures |t| <= n && SingleByte(t) ==> BytesOf(LjustText(t, n)) == Ljust(BytesOf(t), n)
  {
    var padded := LjustText(t, n);
    BytesOfLength(t);
    if |t| < n {
      var nuls: Text := seq(n - |t|, _ => [0 as Byte]);
      assert padded == t + nuls;
      BytesOfAppend(t, nuls);
      BytesOfNuls(n - |t|);
      BytesOfLength(padded);
      if SingleByte(t) {
        assert SingleByte(padded) by {
          forall k | 0 <= k < |padded| ensures |padded[k]| == 1 {
            if k < |t| { assert padded[k] == t[k]; }
          }
        }
      }
    } else {
      assert padded == t;
      if |BytesOf(t)| == n {
        BytesOfLength(t);
      }
    }
  }

  /** Padding twice pads no further. */
  lemma LjustTextIdempotent(t: Text, n: int)
    ensures LjustText(LjustText(t, n), n) == LjustText(t, n)
  {
  }

  /** Zero iterations derive exactly what one iteration derives. */
  lemma ZeroIterationsLikeOne(primitive: string, length: int, mac: Mac, password: Text, salt: Bytes)
    requires Pbkdf2(primitive, 0, length).Valid()
    ensures KeyOf(Pbkdf2(primitive, 0, length), mac, password, salt)
         == KeyOf(Pbkdf2(primitive, 1, length), mac, password, salt)
  {
    var kdf := Pbkdf2(primitive, 0, length);
    var h := kdf.Hmac();
    UtilBlocksSameRounds(mac, h, BytesOf(LjustText(password, h.KeyBytes())), salt, 0, 1, kdf.BlockCount());
  }

  lemma {:induction false} UtilBlocksSameRounds(mac: Mac, h: Hmac, key: Bytes, salt: Bytes, a: int, b: int, n: nat)
    requires Kdf.Rounds(a) == Kdf.Rounds(b)
    ensures UtilBlocks(mac, h, key, salt, a, n) == UtilBlocks(mac, h, key, salt, b, n)
  {
    if n > 0 {
      UtilBlocksSameRounds(mac, h, key, salt, a, b, n - 1);
    }
  }

  /** With zero or one iterations a block is the single hash of its seed. */
  lemma SingleIteration(mac: Mac, h: Hmac, key: Bytes, seed: Bytes, iterations: int)
    requires iterations <= 1
    ensures Folded(mac, h, key, seed, Kdf.Rounds(iterations)) == mac(h, seed, key)
  {
  }

  /** The fold without a zero accumulator equals the zero-started accumulation of the newer engine. */
  lemma {:induction false} FoldedIsAccumulated(mac: Mac, h: Hmac, key: Bytes, seed: Bytes, n: nat)
    requires n >= 1
    ensures Folded(mac, h, key, seed, n) == Kdf.Accumulated(mac, h, key, seed, n)
  {
    if n == 1 {
      var u := Kdf.Chain(mac, h, key, seed, 1);
      assert Kdf.Accumulated(mac, h, key, seed, 0) == Zeros(|u|);
      XorZerosLeft(u);
    } else {
      FoldedIsAccumulated(mac, h, key, seed, n - 1);
    }
  }

  lemma {:induction false} UtilBlocksAreKdfBlocks(mac: Mac, h: Hmac, key: Bytes, salt: Bytes, iterations: int, n: nat)
    ensures UtilBlocks(mac, h, key, salt, iterations, n) == Kdf.Blocks(mac, h, key, salt, iterations, n)
  {
    if n > 0 {
      UtilBlocksAreKdfBlocks(mac, h, key, salt, iterations, n - 1);
      FoldedIsAccumulated(mac, h, key, Seed(salt, n), Kdf.Rounds(iterations));
      assert Seed(salt, n) == Kdf.Seed(salt, n - 1);
    }
  }

  /**
   * For a password the binding accepts, the older engine derives the same
   * key as `Cryptography::KDF::PBKDF2` with the same primitive, size and
   * cost (zero iterations counting as one).
   */
  lemma AgreesWithKdf(kdf: Pbkdf2, mac: Mac, password: Text, salt: Bytes)
    requires kdf.Valid() && |password| <= kdf.Hmac().KeyBytes() && SingleByte(password)
    ensures Kdf.Pbkdf2(kdf.length, kdf.primitive, Kdf.Rounds(kdf.iterations)).Valid()
    ensures KeyOf(kdf, mac, password, salt)
         == Ok(Kdf.DerivedKey(Kdf.Pbkdf2(kdf.length, kdf.primitive, Kdf.Rounds(kdf.iterations)), mac, BytesOf(password), salt, None))
  {
    BytesOfLength(password);
    KeyOfAccepted(kdf, mac, password, salt);
    BlocksAgree(kdf, mac, BytesOf(password), salt);
  }

  /** The blocks of a key of at most `KEY_LEN` bytes are the newer engine's derived key. */
  lemma BlocksAgree(kdf: Pbkdf2, mac: Mac, password: Bytes, salt: Bytes)
    requires kdf.Valid() && |password| <= kdf.Hmac().KeyBytes()
    ensures Kdf.Pbkdf2(kdf.length, kdf.primitive, Kdf.Rounds(kdf.iterations)).Valid()
    ensures UtilBlocks(mac, kdf.Hmac(), Ljust(password, kdf.Hmac().KeyBytes()), salt, kdf.iterations, kdf.BlockCount())
         == Kdf.DerivedKey(Kdf.Pbkdf2(kdf.length, kdf.primitive, Kdf.Rounds(kdf.iterations)), mac, password, salt, None)
  {
    var h := kdf.Hmac();
    var key := Ljust(password, h.KeyBytes());
    var n := kdf.BlockCount();
    var rounds := Kdf.Rounds(kdf.iterations);
    var other := Kdf.Pbkdf2(kdf.length, kdf.primitive, rounds);
    assert other.Hmac() == h;
    assert Kdf.BlockCount(kdf.length, h.OutputBytes()) == n;
    assert Kdf.HashKey(h, password) == key;
    var blocks := Kdf.Blocks(mac, h, key, salt, rounds, n);
    assert Kdf.DerivedKey(other, mac, password, salt, None) == blocks[..kdf.length];
    assert blocks[..kdf.length] == blocks;
    UtilBlocksAreKdfBlocks(mac, h, key, salt, rounds, n);
    UtilBlocksSameRounds(mac, h, key, salt, kdf.iterations, rounds, n);
  }

  /** An accepted password is keyed as its bytes zero-padded to `KEY_LEN`. */
  lemma KeyOfAccepted(kdf: Pbkdf2, mac: Mac, password: Text, salt: Bytes)
    requires kdf.Valid() && |password| <= kdf.Hmac().KeyBytes() && SingleByte(password)
    ensures KeyOf(kdf, mac, password, salt)
         == Ok(UtilBlocks(mac, kdf.Hmac(), Ljust(BytesOf(password), kdf.Hmac().KeyBytes()), salt, kdf.iterations, kdf.BlockCount()))
  {
    PaddedKeyLength(password, kdf.Hmac().KeyBytes());
  }

  /** `key` in terms of the padded password's bytes, for the loop that computes it. */
  lemma KeyOfPadded(kdf: Pbkdf2, mac: Mac, password: Text, salt: Bytes)
    requires kdf.Valid()
    ensures var key := BytesOf(LjustText(password, kdf.Hmac().KeyBytes()));
            && (|key| != kdf.Hmac().KeyBytes() ==> KeyOf(kdf, mac, password, salt) == Err(KeyLengthMismatch))
            && (|key| == kdf.Hmac().KeyBytes() ==>
                  KeyOf(kdf, mac, password, salt) == Ok(UtilBlocks(mac, kdf.Hmac(), key, salt, kdf.iterations, kdf.BlockCount())))
  {
  }

  /**
   * Once the block number `i` has passed the last block, the blocks
   * appended so far are `key`'s result.
   */
  lemma KeyOfBlocks(kdf: Pbkdf2, mac: Mac, password: Text, salt: Bytes, result: Bytes, i: int)
    requires kdf.Valid()
    requires 1 <= i <= kdf.BlockCount() + 1 && !(i <= kdf.BlockCount())
    requires i > 1 ==> |BytesOf(LjustText(password, kdf.Hmac().KeyBytes()))| == kdf.Hmac().KeyBytes()
    requires result == UtilBlocks(mac, kdf.Hmac(), BytesOf(LjustText(password, kdf.Hmac().KeyBytes())), salt, kdf.iterations, i - 1)
    ensures KeyOf(kdf, mac, password, salt) == Ok(result)
  {
  }

  /**
   * `key`: `1.upto(blocks).inject("")`, appending one block per step with
   * the password padded afresh each time.
   */
  method Key(kdf: Pbkdf2, mac: Mac, password: Text, salt: Bytes) returns (r: Result<Bytes>)
    requires kdf.Valid()
    ensures r == KeyOf(kdf, mac, password, salt)
  {
    var h := kdf.Hmac();
    var blocks := kdf.BlockCount();
    ghost var padded := LjustText(password, h.KeyBytes());
    ghost var key := BytesOf(padded);
    var pw := password;
    var result: Bytes := [];
    var i := 1;
    while i <= blocks
      invariant 1 <= i <= blocks + 1
      invariant LjustText(pw, h.KeyBytes()) == padded
      invariant i > 1 ==> |key| == h.KeyBytes()
      invariant result == UtilBlocks(mac, h, key, salt, kdf.iterations, i - 1)
    {
      pw := LjustText(pw, h.KeyBytes());
      LjustTextIdempotent(password, h.KeyBytes());
      var seed := Seed(salt, i);
      var block := XorChainedHmac(mac, h, BytesOf(pw), seed, kdf.iterations);
      if block.Err? {
        KeyOfPadded(kdf, mac, password, salt);
        return Err(block.error);
      }
      result := result + block.value;
      i := i + 1;
    }
    KeyOfBlocks(kdf, mac, password, salt, result, i);
    r := Ok(result);
  }

  /**
   * `_xor_chained_hmac`: hash the seed, then `iterations - 1` times rehash
   * the latest value and xor it into the running result.
   */
  method XorChainedHmac(mac: Mac, h: Hmac, password: Bytes, seed: Bytes, iterations: int) returns (r: Result<Bytes>)
    ensures r.Ok? <==> |password| == h.KeyBytes()
    ensures r.Ok? ==> r.value == Folded(mac, h, password, seed, Kdf.Rounds(iterations))
    ensures r.Err? ==> r.error == KeyLengthMismatch
  {
    var result :- Auth(mac, h, seed, password);
    var xor := result;
    var round := 0;
    while round < iterations - 1
      invariant 0 <= round && (round <= iterations - 1 || round == 0)
      invariant result == Kdf.Chain(mac, h, password, seed, round + 1)
      invariant xor == Folded(mac, h, password, seed, round + 1)
    {
      result := mac(h, result, password);
      xor := XorBytes(xor, result);
      round := round + 1;
    }
    r := Ok(xor);
  }

  /** `_xor`: one xored byte appended per byte of `left`. */
  method XorBytes(left: Bytes, right: Bytes) returns (result: Bytes)
    requires |left| <= |right|
    ensures result == Xor(left, right)
  {
    result := [];
    var i := 0;
    while i < |left|
      invariant 0 <= i <= |left|
      invariant result == Xor(left[..i], right)
    {
      result := result + [left[i] ^ right[i]];
      i := i + 1;
    }
    assert left[..i] == left;
  }

  /**
   * `String#<<` given an integer, on a string whose encoding is UTF-8: the
   * UTF-8 encoding of that code point, two bytes for 0x80 and above.
   */
  function AppendCodepoint(b: Byte): (e: Bytes)
    ensures b < 0x80 ==> e == [b]
    ensures b >= 0x80 ==> |e| == 2
  {
    if b < 0x80 then [b] else [0xC0 | (b >> 6), 0x80 | (b & 0x3F)]
  }

  /**
   * `_xor` as written: each xored byte is appended to `""` as an integer,
   * which a UTF-8 literal turns into a code point rather than a byte.
   */
  function XorAsWritten(left: Bytes, right: Bytes): (r: Bytes)
    requires |left| <= |right|
    ensures |r| >= |left|
    ensures |left| > 0 && left[0] ^ right[0] < 0x80 ==> r[0] == left[0] ^ right[0]
  {
    if |left| == 0 then []
    else XorAsWritten(left[..|left| - 1], right) + AppendCodepoint(left[|left| - 1] ^ right[|left| - 1])
  }

  /**
   * The code as written xors bytewise exactly when no xored byte reaches
   * 0x80; any one that does lengthens the result past `left`.
   */
  lemma {:induction false} XorAsWrittenIsXorIff(left: Bytes, right: Bytes)
    requires |left| <= |right|
    ensures XorAsWritten(left, right) == Xor(left, right) <==> forall k :: 0 <= k < |left| ==> left[k] ^ right[k] < 0x80
    ensures (exists k :: 0 <= k < |left| && left[k] ^ right[k] >= 0x80) ==> |XorAsWritten(left, right)| > |left|
  {
    if |left| > 0 {
      var init := left[..|left| - 1];
      var last := left[|left| - 1] ^ right[|left| - 1];
      XorAsWrittenIsXorIff(init, right);
      assert Xor(left, right) == Xor(init, right) + [last];
      if forall k :: 0 <= k < |left| ==> left[k] ^ right[k] < 0x80 {
        assert forall k :: 0 <= k < |init| ==> init[k] ^ right[k] < 0x80;
      } else if last < 0x80 {
        var k :| 0 <= k < |left| && left[k] ^ right[k] >= 0x80;
        assert init[k] ^ right[k] >= 0x80;
      }
    }
  }

  /** One byte shows it: 0x80 xor 0x00 comes out as the two bytes C2 80. */
  lemma XorAsWrittenCounterexample()
    ensures XorAsWritten([0x80], [0x00]) == [0xC2, 0x80]
    ensures Xor([0x80], [0x00]) == [0x80]
  {
    assert XorAsWritten([], [0x00]) == [];
    assert [0x80 as Byte][..0] == [];
  }
}
